=== FILE: README.md ===
# Travel tool host: query engine and itinerary store, in Dafny

This project models the tool host of a multi-agent travel planner. The host
answers three kinds of structured request from the agent layer:

- **flight search** over a static flight dataset, with route and date
  matching, a non-stop filter, a departure time-of-day window, and a ranking
  by (price, duration, departure time);
- **hotel search** over a static hotel dataset, with city matching, a price
  ceiling, a rating floor, and a ranking by score (best first) and then
  price (cheapest first);
- **itinerary persistence**, which appends a trip record to the in-memory
  trip collection and rewrites the trips file from it.

The model also covers the helpers these requests share:

- the dataset loader's normalisation of a document to a list;
- the `"HH:MM"` parser and the five-window classifier;
- the code-or-city matcher;
- the agent package's normalisation of a module name (`_normalize_module_name`).

Every operation is a pure function over immutable datatypes:

- A JSON key that a record or request may lack is an `Option` field.
- A search returns a tagged `SearchResponse` (`Found(count, results)` or
  `Failed(message)`) rather than raising.
- Persistence maps the trip collection and a request to the new collection
  plus a response.
- The outcome of the file rewrite is an input (`WriteOutcome`), because the
  file system is outside the model.

Python's `list.sort` is modelled by a stable insertion sort (`StableSort`),
and is characterised by what it returns rather than by its algorithm:

- `StablySorts(r, s, le)`: `r` is sorted, and every class of tied elements
  appears in `r` in the order it has in `s`.
- `StableSortUnique` proves that at most one list satisfies this.
- So the ranking the engine computes is exactly the one a stable sort such
  as CPython's Timsort returns (`Flights.RankingIsTheStableSort`,
  `Hotels.RankingIsTheStableSort`).

Each engine's filtering is written two ways, and the contract of the staged
function (`Flights.FilterFlights`, `Hotels.FilterHotels`) proves the two agree:

- as the host stages it (route, then stops, then window; or city, then
  price, then rating);
- as a single reference predicate (`Flights.Admits`, `Hotels.Admits`).

Modules, leaf first:

- `Wrappers` (`Option`)
- `Text`: Python's `strip`, ASCII `lower`, `endswith`, `replace`, and `str` ordering
- `Numerals`: `int()` and `float()` on strings
- `Json`: decoded values, truthiness, `float()` of a value
- `Seqs`: order-preserving filter and Python's `[:n]`
- `StableSort`
- `TimeWindow`
- `Matcher`
- `Responses`
- `Flights`
- `Hotels`
- `Dataset`
- `Itinerary`
- `ModuleName`

Remarks on the behaviour the model pins down:

- **Negative `limit`.** `results[:limit]` follows Python slicing. A negative
  `limit` therefore drops elements from the end of the ranking rather than
  capping it. So "the result never exceeds the limit" holds only for a
  non-negative limit, and `SearchFlights` and `SearchHotels` state it only
  for that case.
- **Rating keys.** The hotel rating floor reads `rating` before
  `review_score`, while the hotel ranking reads them the other way round
  (`Hotels.FloorAndScoreDisagree`).
- **Departure times.** The flight ranking compares departure times as
  strings. That is time order for zero-padded `"HH:MM"` times
  (`TimeWindow.FormatOrderIsTimeOrder`) but not otherwise: `"10:00"` sorts
  before `"9:05"` (`TimeWindow.UnpaddedTimesMisorder`).
- **The "night" window.** It ends at 23:59 and does not wrap. Flights from
  00:00 to 03:59, and those in the gaps 11:01–11:59 and 21:01–21:59, fall in
  no window (`TimeWindow.GapsInNoWindow`).
- **Blank hotel city.** A hotel search whose `city` is only whitespace
  passes validation. It then matches exactly the records whose city is
  missing or blank (`Hotels.BlankCityMatchesCitylessHotels`).

## Model

| member | source | states |
|---|---|---|
| Text.Trim | mcpHost.py:55 | `strip`: the result is empty exactly when every character is whitespace, it never begins or ends with whitespace, and an already-trimmed string is returned as it is |
| Text.TrimFramed | mcpHost.py:55 | stripping a string padded on both sides by whitespace gives back the unpadded string |
| Text.StripLowerCommute | mcpHost.py:55 | stripping then lower-casing equals lower-casing then stripping, so the order of `.strip().lower()` does not matter |
| Text.TrimLowerCommute | mcpHost.py:55 | stripping any set of characters that lower-casing maps into itself commutes with lower-casing |
| Text.TrimAddsNothing | __init__.py:32 | stripping never introduces a character the string did not already hold |
| Text.ReplaceCharConcat | __init__.py:32-33 | `replace` of one character works piece by piece over a concatenation |
| Text.LowerIdempotent | mcpHost.py:55 | lower-casing twice is lower-casing once |
| Text.StrLeTotal | mcpHost.py:87-92 | Python's string order is total, so departure times are always comparable |
| Text.StrLeTransitive | mcpHost.py:87-92 | Python's string order is transitive |
| Text.StrLeAntisymmetric | mcpHost.py:87-92 | two strings ordered both ways are equal |
| Json.Truthy | mcpHost.py:126 | exactly `None`, `False`, `0`, `""`, `[]` and `{}` are falsy; every other decoded value is truthy |
| Json.ToFloat | mcpHost.py:107-110 | `float()` of a number is the number, of `True` 1.0 and of `False` 0.0, of `None`, a list or a dict fails, and of a string is the numeral reader's value, so it succeeds only on a non-blank numeral |
| Json.NumeralReadsAsNumber | mcpHost.py:107-110 | a whole number sent as its decimal string reads as the number itself |
| Numerals.ParseNat | mcpHost.py:31 | the model's `int()` reader succeeds exactly on non-empty runs of ASCII decimal digits (narrower than Python's, see Left out) |
| Numerals.ParseShowNat | mcpHost.py:31 | every natural number written in decimal reads back as itself |
| Numerals.ParseFloat | mcpHost.py:107-111 | `float()` on a string fails on blank input and accepts only digits, a point and a sign once stripped |
| Numerals.ParseFloatOfNat | mcpHost.py:107-111 | a decimal numeral with surrounding whitespace reads back as its value |
| Numerals.ParseFloatIgnoresPadding | mcpHost.py:107-110 | whitespace around a numeral does not change what `float()` reads |
| Numerals.ParseFloatOfDecimal | mcpHost.py:107-110 | `w.f` reads as `w` plus the value of the digits `f` divided by ten to the number of those digits |
| Numerals.ParseFloatOfSigned | mcpHost.py:107-110 | a leading `+` changes nothing and a leading `-` negates the value, and both fail exactly when the unsigned numeral fails |
| Numerals.FourAndAHalf | mcpHost.py:107-110 | `"4.5"` reads as 4.5 |
| TimeWindow.SplitColon | mcpHost.py:29 | the split succeeds only when the string is two colon-free parts joined by one colon |
| TimeWindow.ParseTime | mcpHost.py:27-33 | a time parses only from a string that splits at exactly one colon and holds only digits and that colon, at least three long, and the parsed hour is below 24 and minute below 60 |
| TimeWindow.ParseTimeOfParts | mcpHost.py:27-33 | `"H:M"` parses exactly when both parts are digit strings with hour < 24 and minute < 60, and then to that time |
| TimeWindow.ParseFormat | mcpHost.py:27-33 | every valid time written `"HH:MM"` parses back to itself |
| TimeWindow.IsInWindow | mcpHost.py:35-47 | an unparseable time is in no window; an unknown window name admits every parseable time; otherwise membership is `start <= t <= end`, inclusive |
| TimeWindow.WindowBounds | mcpHost.py:38-45 | exactly the five names of the table have bounds, and each window's bounds are valid times with the start not after the end |
| TimeWindow.WindowTable | mcpHost.py:38-44 | the five windows in minutes of the day: 240–540, 360–660, 720–1019, 1020–1260, 1320–1439 |
| TimeWindow.GapsInNoWindow | mcpHost.py:38-47 | times before 04:00, in 11:01–11:59 or in 21:01–21:59 are admitted only under a window name outside the table |
| TimeWindow.MorningOverlap | mcpHost.py:39-40 | 06:00–09:00 lies in both `early_morning` and `morning` |
| TimeWindow.EmptyTimeInNoWindow | mcpHost.py:36-37 | a flight without a departure time fails every window, even an unknown one |
| TimeWindow.HourOutOfRangeInNoWindow | mcpHost.py:31-33 | `"24:00"` is rejected by `time()` and so is in no window |
| TimeWindow.MinuteOutOfRangeInNoWindow | mcpHost.py:31-33 | `"10:60"` is in no window |
| TimeWindow.SecondsInNoWindow | mcpHost.py:29 | `"10:00:00"` does not split into two parts and is in no window |
| TimeWindow.UnpaddedTimeParses | mcpHost.py:29-31 | `"7:5"` is accepted as 07:05 |
| TimeWindow.FormatOrderIsTimeOrder | mcpHost.py:90-92 | for zero-padded `"HH:MM"` times, string order is time order |
| TimeWindow.UnpaddedTimesMisorder | mcpHost.py:90-92 | unpadded times both parse, yet `"10:00"` sorts before `"9:05"` as strings |
| Matcher.AnyLowersTo | mcpHost.py:58-60 | true exactly when some candidate, lower-cased, equals the token |
| Matcher.MatchCityOrCode | mcpHost.py:53-61 | false for a missing or blank token; otherwise true exactly when the stripped, lower-cased token equals some lower-cased code or city, as whole strings |
| Matcher.BlankTokenNeverMatches | mcpHost.py:55-56 | a missing or whitespace-only token matches nothing, not even an empty candidate |
| Matcher.MatchIgnoresTokenCase | mcpHost.py:55 | the token's letter case does not change the answer |
| Matcher.MatchIgnoresTokenPadding | mcpHost.py:55 | whitespace around the token does not change the answer |
| Matcher.TokenMatchesItself | mcpHost.py:58-60 | an unpadded token matches a candidate equal to it |
| Matcher.PaddedCodeMatches | mcpHost.py:55-58 | `" del "` matches the code `"DEL"` |
| Matcher.CityNameMatches | mcpHost.py:60 | `"DELHI"` matches the city `"Delhi"` |
| Matcher.CodePrefixDoesNotMatch | mcpHost.py:58 | `"DE"` does not match `"DEL"`: matching is not by prefix |
| Matcher.PartOfCityDoesNotMatch | mcpHost.py:60 | `"Delhi"` does not match `"New Delhi"`: matching is not by substring |
| Matcher.PaddedCandidateDoesNotMatch | mcpHost.py:58 | candidates are not stripped, so `" DEL"` never matches |
| Seqs.Filter | mcpHost.py:84-86 | the comprehension keeps only elements that satisfy the test and come from the list, and never lengthens it |
| Seqs.FilterComplete | mcpHost.py:84-86 | every element of the list that satisfies the test is kept |
| Seqs.FilterTwice | mcpHost.py:83-86 | two filters in a row equal one filter by their conjunction |
| Seqs.FilterAgree | mcpHost.py:83-86 | tests that agree on every element filter alike |
| Seqs.PermutedFilterSound | mcpHost.py:92-93 | any rearrangement of a filtered list holds only elements of the list that pass the filter |
| Seqs.SlicePrefix | mcpHost.py:93 | `[:n]` is a prefix: of length `min(n, len)` for `n >= 0`, and shorter by `-n` for negative `n` |
| StableSort.InsertionSortIsStable | mcpHost.py:92 | insertion sort returns a sorted list in which tied elements keep their input order |
| StableSort.StableSortUnique | mcpHost.py:92 | two stable sorts of one list by one total preorder are equal |
| StableSort.StableSortIsInsertionSort | mcpHost.py:92 | any stable sort returns what insertion sort returns |
| StableSort.InsertionSortTies | mcpHost.py:92 | each class of tied elements appears after sorting exactly as before |
| StableSort.SortedPair | mcpHost.py:118 | a sorted arrangement of two elements puts the strictly lower-ranked one first |
| Flights.MissingField | mcpHost.py:65-66 | the reported field is the first of source, destination, date that is absent or empty, in that order, and none is reported only when all three are given |
| Flights.FilterFlights | mcpHost.py:74-86 | route-and-date, then stops, then window filtering keeps exactly the flights the single reference predicate admits, in dataset order |
| Flights.FlightLeIsTotalPreorder | mcpHost.py:87-92 | the (price, duration, departure time) key order is total and transitive |
| Flights.FlightTiesShareKey | mcpHost.py:87-92 | two flights tie exactly when their keys, defaults included, are equal |
| Flights.Key | mcpHost.py:87-91 | the key is the price, else `1e9`, then the duration, else `1e9`, then the departure time, else `"99:99"` |
| Flights.UnpricedRanksLast | mcpHost.py:88 | a flight without a price ranks strictly after every flight priced below `1e9` |
| Flights.RankFlights | mcpHost.py:87-92 | the ranking is a stable sort of the admitted flights by the key: sorted, ties in dataset order, a permutation of them |
| Flights.RankingIsTheStableSort | mcpHost.py:92 | every stable sort of the admitted flights equals this ranking |
| Flights.RankedFlightsSound | mcpHost.py:74-92 | every ranked flight is on the requested route and date, is non-stop when asked, departs in the requested window, and comes from the dataset |
| Flights.SearchFlights | mcpHost.py:63-96 | fails exactly when source, destination or date is missing, naming the first; otherwise `count` is the number of admitted flights and `results` is the first `limit` of the ranking, each admitted and from the dataset, sorted, and no longer than `count` or a non-negative `limit` |
| Flights.Answer | mcpHost.py:73-93 | for a validated query, `count` is the number of admitted flights and `results` is the first `limit` of their ranking: all admitted, all from the dataset, sorted, and no more than `count` or a non-negative `limit` |
| Flights.RankingSlice | mcpHost.py:92-93 | the ranking holds exactly as many flights as pass the filters, and every flight of its `[:limit]` slice is admitted, from the dataset and in key order |
| Flights.NonStopExample | mcpHost.py:63-93 | with a direct flight at 4200 and a one-stop flight at 3000 on the same route and date, a non-stop search returns only the direct flight, count 1 |
| Hotels.Bound | mcpHost.py:102-113 | an absent or null criterion switches its filter off, and a present one is read with `float()` |
| Hotels.FilterHotels | mcpHost.py:105-113 | city, then price, then rating filtering keeps exactly the hotels the single reference predicate admits, in dataset order |
| Hotels.HotelLeIsTotalPreorder | mcpHost.py:114-118 | the (-score, price) key order is total and transitive |
| Hotels.HotelTiesShareKey | mcpHost.py:114-118 | two hotels tie exactly when score and price agree |
| Hotels.RankHotels | mcpHost.py:114-118 | the ranking is a stable sort of the admitted hotels: best score first, cheaper first among equal scores, ties in dataset order, a permutation of them |
| Hotels.RankingIsTheStableSort | mcpHost.py:118 | every stable sort of the admitted hotels equals this ranking |
| Hotels.RankedHotelsSound | mcpHost.py:105-118 | every ranked hotel is in the city, under a parsed price ceiling, over a parsed rating floor, and from the dataset |
| Hotels.SearchHotels | mcpHost.py:98-122 | fails with "Missing city" exactly when the city is absent or empty; otherwise `count` is the number of admitted hotels and `results` is the first `limit` of the ranking, each admitted and from the dataset, sorted, and no longer than `count` or a non-negative `limit` |
| Hotels.Answer | mcpHost.py:105-119 | for a validated query, `count` is the number of admitted hotels and `results` is the first `limit` of their ranking: all admitted, all from the dataset, sorted, and no more than `count` or a non-negative `limit` |
| Hotels.RankingSlice | mcpHost.py:118-119 | the ranking holds exactly as many hotels as pass the filters, and every hotel of its `[:limit]` slice is admitted, from the dataset and in key order |
| Hotels.UnreadableBoundIsSkipped | mcpHost.py:106-108 | a price cap string the model's numeral reader rejects gives the same query, and so the same search answer, as no cap at all |
| Hotels.BlankCityMatchesCitylessHotels | mcpHost.py:100-105 | a whitespace-only city passes validation and then matches exactly the hotels whose city is missing or blank |
| Hotels.FloorAndScoreDisagree | mcpHost.py:113-115 | a hotel rated 3.0 with review score 4.8 fails a 4.0 floor yet ranks as 4.8 |
| Hotels.RatingOf | mcpHost.py:113 | the floor reads `rating` when present, and otherwise agrees with the ranking score |
| Hotels.ScoreOf | mcpHost.py:115 | the ranking reads `review_score` when present, and 0 when neither key is present |
| Hotels.RatingsDisagreeOnlyWithBothKeys | mcpHost.py:113-115 | the floor's reading and the ranking's differ only for a record carrying both keys with different values |
| Hotels.CheaperFirst | mcpHost.py:114-118 | of two admitted hotels with equal score, the cheaper is ranked first |
| Hotels.RatingFloorExample | mcpHost.py:98-119 | of hotels rated 4.5/6000, 3.9/2000 and 4.5/5000, a 4.0 floor returns the 5000 one then the 6000 one, count 2 |
| Dataset.Load | mcpHost.py:15-19 | a missing file loads as the empty list, a list document loads as its items, and any other document loads as a list of that one document |
| Dataset.LoadDocument | mcpHost.py:15-19 | a list saved as a JSON array loads back unchanged |
| Dataset.LoadIsIdempotent | mcpHost.py:15-19 | saving a loaded collection and loading it again changes nothing |
| Dataset.SingleRecordIsWrapped | mcpHost.py:19 | a file with one non-list record loads like a file with a list of that record |
| Itinerary.NewTrip | mcpHost.py:128 | the trip record binds `userId` and `itinerary` to the request's values and `meta` to the request's meta, `{}` when absent |
| Itinerary.Persist | mcpHost.py:124-136 | an incomplete request changes nothing and is refused; otherwise the collection grows by one at the end with everything earlier unchanged, the new record carries the request's values, and the response is that record or, when the write fails, its error, the record staying appended |
| Itinerary.PersistIsAppendOnly | mcpHost.py:129 | the old collection is always a prefix of the new one, which is at most one longer |
| Itinerary.PersistedFileReloads | mcpHost.py:129-131 | after a successful write, loading the trips file gives back the collection in memory |
| Itinerary.PersistTwice | mcpHost.py:124-133 | two persists grow the collection by exactly two, keep earlier trips, and store both itineraries in order |
| Itinerary.EmptyUserIdRefused | mcpHost.py:126-127 | an empty-string user id is falsy and the request is refused |
| ModuleName.DropPySuffix | __init__.py:29-30 | a trailing `.py` is removed once, and a name without one is unchanged |
| ModuleName.NormalizeModuleName | __init__.py:24-34 | the result is never empty, never contains `/` or `\`, and is `"agent"` for a missing, empty or whitespace-only name |
| ModuleName.Dotted | __init__.py:32-33 | each `/` or `\` becomes a dot and every other character stays |
| ModuleName.ReplacementsDot | __init__.py:32-33 | replacing `\` by `/` and then `/` by `.` turns every separator into a dot and leaves every other character |
| ModuleName.UnpaddedNameBecomesDotted | __init__.py:27-34 | an unpadded name whose `.py`-less form has no separator at either end comes back as that form with separators as dots |
| ModuleName.FramedNameBecomesDotted | __init__.py:27-34 | whenever the stripped, `.py`-less name is a core framed by runs of separators, the result is the core with its separators as dots |
| ModuleName.PaddingIgnored | __init__.py:27 | whitespace around a name does not change the result |
| ModuleName.PathBecomesDotted | __init__.py:27-34 | an unpadded path with no separator at either end and no `.py` suffix comes back with its separators as dots |
| ModuleName.CleanNameUnchanged | __init__.py:27-34 | a non-empty name without surrounding whitespace, separators or `.py` suffix is returned unchanged |
| ModuleName.PySuffixRemovedOnce | __init__.py:29-30 | `"a.py.py"` becomes `"a.py"` |
| ModuleName.SlashFramedPath | __init__.py:32-33 | a path between a leading and a trailing `/` loses both and has its separators turned into dots |
| ModuleName.OuterSeparatorsDropped | __init__.py:32-33 | `"/app/agents/x/"` becomes `"app.agents.x"` |
| ModuleName.OnlySeparatorsIsDefault | __init__.py:32-34 | a name made only of `/` and `\` leaves nothing after the separators are stripped and falls back to `"agent"` |
| ModuleName.AllSeparatorsIsDefault | __init__.py:27-34 | whenever the stripped, `.py`-less name is only separators (`"/.py"`, `" // "`), the result is `"agent"`; with FramedNameBecomesDotted this covers every name |
| ModuleName.BareSuffixIsDefault | __init__.py:29-34 | `".py"` leaves nothing once the suffix is removed and falls back to `"agent"` |

## Left out

- The Flask application and its HTTP routes are not modelled: they are
  transport plumbing. The engines are modelled as the functions the routes
  call.
- File I/O is not modelled. This covers reading the data files, whether a
  path exists, and the JSON encoding of the trips file. `Dataset.Load`
  starts from the decoded document, and the rewrite of the trips file is
  reduced to a success-or-failure input. A failed rewrite may also leave a
  truncated file; the model does not track the file's contents after a
  failure.
- The five collections (flights, hotels, attractions, users and trips) are
  loaded at import time into process-wide state. The model passes them as
  arguments instead. Concurrent requests sharing `TRIPS` are not modelled.
- The catch-all handlers turn any exception into an error response carrying
  the exception's text. The model's typed requests and records cannot hold
  the values that raise, so these error responses are not modelled. The
  values, and when each one raises, are:
  - a request `source`, `destination` or `city` that is truthy but not a
    string: `strip()` raises as soon as validation has passed;
  - a `limit` that `int()` rejects (`null`, a word, a list);
  - an entry of the flight or hotel collection that is not a JSON object
    (`_load` wraps a bare scalar document into such an entry): `get` raises
    at mcpHost.py:75 or :105 on every search that passes validation;
  - a hotel whose `city` is null or not a string: `strip()` raises at :105
    on every validated hotel search, whatever city is asked for;
  - a flight whose `source`, `sourceCity`, `destination` or
    `destinationCity` is null or not a string, only when matching reaches
    that value. The flight's date must equal the requested one (:77), the
    stripped token must be non-blank (:56), the city is read only when the
    code did not match (:58, :60), and the destination only when the source
    matched (:79-80). A null `sourceCity` on a flight whose `source` code
    matches raises nothing;
  - a flight whose `stops` is null or not a number, only when the non-stop
    filter is on and the flight matched route and date (:84);
  - an admitted flight whose `price` or `durationMinutes` is null or not a
    number: the ranking key reads them for every admitted flight (:87-92),
    and for no other;
  - an admitted flight whose `departureTime` is present but not a string,
    and no time window is set, only when the sort compares its key with that
    of another admitted flight of equal price and duration whose departure
    time Python cannot order against it (a string against a number, or
    anything against `null`). With a time window set, `_parse_time` catches
    the failure (:32) and the flight is dropped instead;
  - a hotel that passed the city and price filters and whose `rating` is
    null or not a number, only under a `minRating` that `float()` reads
    (:109-113); its
    `review_score` is read there instead only when `rating` is absent;
  - a hotel that survives the filters and whose `review_score`, or its
    `rating` when `review_score` is absent, or its `pricePerNight`, is null
    or not a number: the ranking key reads them (:114-117). A hotel in
    another city has no field read except `city`.
  Record fields are typed, so a numeric string such as `"4200"` in `price`
  or `"0"` in `stops` cannot be written down either. Python's `float()` and
  `int()` accept such strings, so those records are ranked or filtered
  there as if they held the number; the model has no such records.
- A `limit` is a whole number here. `int()` at mcpHost.py:72 and :104 also
  accepts a numeric string (`"3"`), a fractional number, truncated toward
  zero (`2.7` is 2), and a boolean (`true` is 1). Those requests are not
  modelled.
- Other ill-typed request values raise nothing in the engine and are not
  modelled either. A `date` that is not a string only fails the equality
  test with each flight's date. A truthy hashable `timeWindow` that is not
  a string (`5`, say) is no window name: like an unknown name, it lets
  through every flight whose departure time parses, while :37 still drops
  the flights whose time does not. An unhashable `timeWindow` (a list)
  raises in the window table lookup, but only for a flight whose departure
  time parses.
- A hotel whose `pricePerNight` is null or not a number switches the price
  cap off for every hotel. The cap's filter runs inside the
  `try`/`except: pass` of mcpHost.py:107-108, so the `float()` failure on
  that one record discards the whole filtered list and the unfiltered one
  is kept: with a cap of 5000, a hotel at 9000 in the same city is then
  returned. The search fails instead only if the bad record also survives
  to the ranking, whose `float()` of the price is not guarded. Hotel
  prices are typed here, so the model's cap always applies.
- `stops` and `durationMinutes` are whole numbers here. mcpHost.py:84 and
  :89 apply `int()`, which truncates a fractional JSON number toward zero:
  a flight with `0.5` stops counts as non-stop there, and a duration of
  `90.7` ranks as `90`. Fractional values of these fields are not
  modelled.
- Flights.SearchFlights: `nonStop` is an optional boolean. An explicit
  `null` (falsy in Python, which switches the filter off) and non-boolean
  values are not modelled.
- TimeWindow.ParseTime: hour and minute parts are plain ASCII digit
  strings. Python's `int()` also accepts surrounding whitespace, a sign,
  underscores and non-ASCII digits, so `" 7:05"` parses in Python but not
  here.
- Numerals.ParseNat: reads only non-empty runs of ASCII digits. Python's
  `int()` also accepts surrounding whitespace, a sign, underscores between
  digits and non-ASCII digits.
- Numerals.ParseFloat: only `[+-]digits[.digits]` with surrounding
  whitespace is read. Exponents, `"inf"`, `"nan"`, underscores, non-ASCII
  digits and forms such as `".5"` or `"5."` are rejected here although
  Python accepts them.
- Floating point is modelled with exact reals. Rounding, NaN and infinities
  are not modelled. The `1e9` defaults are exact.
- `lower()` is ASCII only, so non-ASCII letters are left as they are.
- The attraction and user collections are loaded but no modelled operation
  reads them.
- `_import_selected_module` and the module-level import logic of the agent
  package are not modelled: they probe the file system and `importlib`.
- The agent modules and the prompt text are not part of this model. They
  are thin wrappers around HTTP calls and language-model runtimes.
- `preferredAirline` is sent by callers but never read by the host, so it is
  not modelled.
- The unused `codes`/`cities` locals are not modelled, and neither is
  logging.

=== FILE: dataset.dfy ===
/** The dataset loader of the tool host (`_load` in mcpHost.py), reduced to
    what it does with the decoded document: every collection is a list. */
module Dataset {
  import opened Json

  /** What the loader finds at a data file's path: nothing, or a file
      holding one decoded JSON document. */
  datatype Source = Missing | Present(doc: Json)

  /** `_load`: a missing file is the empty collection, a JSON list is
      itself, and any other document is a collection of one. */
  function Load(src: Source): (r: seq<Json>)
    ensures src.Missing? ==> r == []
    ensures src.Present? ==> JArr(r) == src.doc || r == [src.doc]
    ensures src.Present? && src.doc.JArr? ==> r == src.doc.items
    ensures src.Present? && !src.doc.JArr? ==> |r| == 1
  {
    match src
    case Missing => []
    case Present(JArr(items)) => items
    case Present(d) => [d]
  }

  /** The document a collection is saved as. */
  function Document(items: seq<Json>): (d: Json)
    ensures d.JArr?
  {
    JArr(items)
  }

  /** A saved collection loads back unchanged. */
  lemma LoadDocument(items: seq<Json>)
    ensures Load(Present(Document(items))) == items
  {
  }

  /** Saving a loaded collection and loading it again changes nothing. */
  lemma LoadIsIdempotent(src: Source)
    ensures Load(Present(Document(Load(src)))) == Load(src)
  {
  }

  /** A single record that is not a list is wrapped, so a file holding one
      record and a file holding a list of that one record load alike. */
  lemma SingleRecordIsWrapped(record: Json)
    requires !record.JArr?
    ensures Load(Present(record)) == Load(Present(Document([record])))
  {
  }
}

=== FILE: flights.dfy ===
/** The flight query engine of the tool host (`search_flights_tool` in
    mcpHost.py): validates the request, keeps the flights on the requested
    route and date that meet the non-stop and time-window criteria, ranks
    them by (price, duration, departure time) with a stable sort and returns
    the match count with the first `limit` ranked flights. */
module Flights {
  import opened Wrappers
  import opened Text
  import opened Seqs
  import opened StableSort
  import opened TimeWindow
  import opened Matcher
  import opened Responses

  /** A record of the flight dataset; `None` marks a key the record lacks.
      `airline` is carried along and never read. */
  datatype Flight = Flight(
    source: Option<string>,
    sourceCity: Option<string>,
    destination: Option<string>,
    destinationCity: Option<string>,
    departureDate: Option<string>,
    departureTime: Option<string>,
    stops: Option<int>,
    durationMinutes: Option<int>,
    price: Option<real>,
    airline: Option<string>)

  /** The body of a flight search request. Callers also send
      `preferredAirline`, which the engine never reads. */
  datatype FlightRequest = FlightRequest(
    source: Option<string>,
    destination: Option<string>,
    date: Option<string>,
    nonStop: Option<bool>,
    timeWindow: Option<string>,
    limit: Option<int>)

  /** Ranking defaults for a record that lacks the key, besides the price:
      `1e9` for the duration, `"99:99"` for the departure time. */
  const DurationDefault: int := 1000000000
  const TimeDefault: string := "99:99"

  /** Python truthiness of an optional string: present and non-empty. */
  predicate Given(o: Option<string>) {
    o.Some? && o.value != []
  }

  /** The first of `source`, `destination`, `date` (checked in that order)
      that is absent or empty. */
  function MissingField(req: FlightRequest): (r: Option<string>)
    ensures r.None? <==> Given(req.source) && Given(req.destination) && Given(req.date)
    ensures !Given(req.source) ==> r == Some("source")
    ensures Given(req.source) && !Given(req.destination) ==> r == Some("destination")
    ensures Given(req.source) && Given(req.destination) && !Given(req.date) ==> r == Some("date")
  {
    if !Given(req.source) then Some("source")
    else if !Given(req.destination) then Some("destination")
    else if !Given(req.date) then Some("date")
    else None
  }

  /** A validated request: stripped route tokens, the exact date, the
      non-stop flag (default true), the window name (`""` for none) and the
      limit (default 5). */
  datatype FlightQuery = FlightQuery(
    src: string, dst: string, date: string, nonStop: bool, window: string, limit: int)

  function QueryOf(req: FlightRequest): FlightQuery
    requires MissingField(req).None?
  {
    FlightQuery(
      Strip(req.source.value), Strip(req.destination.value), req.date.value,
      req.nonStop.GetOr(true), req.timeWindow.GetOr(""), req.limit.GetOr(DefaultLimit))
  }

  /** Same date, and both ends match by code or by city name. */
  predicate OnRoute(q: FlightQuery, f: Flight) {
    && f.departureDate == Some(q.date)
    && MatchCityOrCode(Some(q.src), [f.source.GetOr("")], [f.sourceCity.GetOr("")])
    && MatchCityOrCode(Some(q.dst), [f.destination.GetOr("")], [f.destinationCity.GetOr("")])
  }

  /** `int(f.get("stops", 1)) == 0`. */
  predicate NonStop(f: Flight) {
    f.stops.GetOr(1) == 0
  }

  /** `_is_in_window(f.get("departureTime", ""), window)`. */
  predicate DepartsIn(window: string, f: Flight) {
    IsInWindow(f.departureTime.GetOr(""), window)
  }

  /** Every criterion at once: the reference the staged filtering of the
      engine is proved against. A missing stop count is a stop. */
  predicate Admits(q: FlightQuery, f: Flight) {
    && OnRoute(q, f)
    && (q.nonStop ==> f.stops == Some(0))
    && (q.window != "" ==> DepartsIn(q.window, f))
  }

  function AdmitsFn(q: FlightQuery): Flight -> bool {
    f => Admits(q, f)
  }

  function OnRouteFn(q: FlightQuery): Flight -> bool {
    f => OnRoute(q, f)
  }

  function RouteAndStopsFn(q: FlightQuery): Flight -> bool {
    f => OnRoute(q, f) && (q.nonStop ==> NonStop(f))
  }

  function WindowFn(window: string): Flight -> bool {
    f => DepartsIn(window, f)
  }

  /** The flights a query admits, in dataset order. */
  function Matching(flights: seq<Flight>, q: FlightQuery): seq<Flight> {
    Filter(flights, AdmitsFn(q))
  }

  /** The filtering as the engine stages it: route and date in one pass,
      then the non-stop filter, then the time-window filter. It keeps
      exactly the admitted flights, in dataset order. */
  function FilterFlights(flights: seq<Flight>, q: FlightQuery): (r: seq<Flight>)
    ensures r == Matching(flights, q)
  {
    var routed := Filter(flights, OnRouteFn(q));
    var direct := if q.nonStop then Filter(routed, NonStop) else routed;
    StopsStage(flights, q);
    assert direct == Filter(flights, RouteAndStopsFn(q));
    WindowStage(flights, q);
    if q.window != "" then Filter(direct, WindowFn(q.window)) else direct
  }

  lemma StopsStage(flights: seq<Flight>, q: FlightQuery)
    ensures (if q.nonStop then Filter(Filter(flights, OnRouteFn(q)), NonStop) else Filter(flights, OnRouteFn(q)))
         == Filter(flights, RouteAndStopsFn(q))
  {
    if q.nonStop {
      forall f | f in flights ensures RouteAndStopsFn(q)(f) == (OnRouteFn(q)(f) && NonStop(f)) {
      }
      FilterTwice(flights, OnRouteFn(q), NonStop, RouteAndStopsFn(q));
    } else {
      forall f | f in flights ensures OnRouteFn(q)(f) == RouteAndStopsFn(q)(f) {
      }
      FilterAgree(flights, OnRouteFn(q), RouteAndStopsFn(q));
    }
  }

  lemma WindowStage(flights: seq<Flight>, q: FlightQuery)
    ensures (if q.window != "" then Filter(Filter(flights, RouteAndStopsFn(q)), WindowFn(q.window))
             else Filter(flights, RouteAndStopsFn(q)))
         == Matching(flights, q)
  {
    forall f | f in flights ensures (q.nonStop ==> NonStop(f)) == (q.nonStop ==> f.stops == Some(0)) {
    }
    if q.window != "" {
      forall f | f in flights ensures AdmitsFn(q)(f) == (RouteAndStopsFn(q)(f) && WindowFn(q.window)(f)) {
      }
      FilterTwice(flights, RouteAndStopsFn(q), WindowFn(q.window), AdmitsFn(q));
    } else {
      forall f | f in flights ensures RouteAndStopsFn(q)(f) == AdmitsFn(q)(f) {
      }
      FilterAgree(flights, RouteAndStopsFn(q), AdmitsFn(q));
    }
  }

  /** The composite ranking key with its defaults. */
  function Key(f: Flight): (k: (real, int, string))
    ensures f.price.Some? ==> k.0 == f.price.value
    ensures f.price.None? ==> k.0 == 1000000000.0
    ensures f.durationMinutes.Some? ==> k.1 == f.durationMinutes.value
    ensures f.durationMinutes.None? ==> k.1 == 1000000000
    ensures f.departureTime.Some? ==> k.2 == f.departureTime.value
    ensures f.departureTime.None? ==> k.2 == "99:99"
  {
    (f.price.GetOr(PriceDefault), f.durationMinutes.GetOr(DurationDefault), f.departureTime.GetOr(TimeDefault))
  }

  /** Python's `<=` on the key tuples: price, then duration, then the
      departure time as a string. */
  predicate FlightLe(a: Flight, b: Flight) {
    var (p, d, t) := Key(a);
    var (p', d', t') := Key(b);
    p < p' || (p == p' && (d < d' || (d == d' && StrLe(t, t'))))
  }

  lemma FlightLeIsTotalPreorder()
    ensures TotalPreorder(FlightLe)
  {
    forall a: Flight, b: Flight ensures FlightLe(a, b) || FlightLe(b, a) {
      StrLeTotal(Key(a).2, Key(b).2);
    }
    forall a: Flight, b: Flight, c: Flight | FlightLe(a, b) && FlightLe(b, c) ensures FlightLe(a, c) {
      if Key(a).0 == Key(b).0 == Key(c).0 && Key(a).1 == Key(b).1 == Key(c).1 {
        StrLeTransitive(Key(a).2, Key(b).2, Key(c).2);
      }
    }
  }

  /** Two flights tie in the ranking exactly when their keys are equal. */
  lemma FlightTiesShareKey(a: Flight, b: Flight)
    ensures Tied(FlightLe, a, b) <==> Key(a) == Key(b)
  {
    if Tied(FlightLe, a, b) {
      StrLeAntisymmetric(Key(a).2, Key(b).2);
    } else if Key(a) == Key(b) {
      StrLeTotal(Key(a).2, Key(b).2);
    }
  }

  /** A flight without a price ranks after every flight priced below the
      `1e9` default. */
  lemma UnpricedRanksLast(a: Flight, b: Flight)
    requires a.price.Some? && a.price.value < PriceDefault
    requires b.price.None?
    ensures FlightLe(a, b) && !FlightLe(b, a)
  {
  }

  /** The admitted flights after `results.sort(key=key_fn)`: ordered by the
      key, ties in dataset order, nothing added or lost. */
  function RankFlights(flights: seq<Flight>, q: FlightQuery): (ranked: seq<Flight>)
    ensures StablySorts(ranked, Matching(flights, q), FlightLe)
    ensures multiset(ranked) == multiset(Matching(flights, q))
  {
    FlightLeIsTotalPreorder();
    InsertionSortIsStable(Matching(flights, q), FlightLe);
    InsertionSort(FilterFlights(flights, q), FlightLe)
  }

  /** Python's sort is stable too, so it returns exactly this ranking. */
  lemma RankingIsTheStableSort(flights: seq<Flight>, q: FlightQuery, r: seq<Flight>)
    requires StablySorts(r, Matching(flights, q), FlightLe)
    ensures r == RankFlights(flights, q)
  {
    FlightLeIsTotalPreorder();
    StableSortUnique(r, RankFlights(flights, q), Matching(flights, q), FlightLe);
  }

  /** Every ranked flight is admitted by the query and comes from the
      dataset. */
  lemma RankedFlightsSound(flights: seq<Flight>, q: FlightQuery)
    ensures forall i :: 0 <= i < |RankFlights(flights, q)| ==>
      Admits(q, RankFlights(flights, q)[i]) && RankFlights(flights, q)[i] in flights
  {
    PermutedFilterSound(RankFlights(flights, q), flights, AdmitsFn(q));
  }

  /** `search_flights_tool`. A missing or empty `source`, `destination` or
      `date` is reported, first one first, without filtering. Otherwise the
      count is the number of admitted flights and the results are the first
      `limit` of their ranking (Python slice semantics: a negative limit
      drops from the end). */
  function SearchFlights(flights: seq<Flight>, req: FlightRequest): (r: SearchResponse<Flight>)
    ensures r.Failed? <==> MissingField(req).Some?
    ensures r.Failed? ==> r.message == "Missing " + MissingField(req).value
    ensures r.Found? ==> r.count == |Matching(flights, QueryOf(req))|
    ensures r.Found? ==> r.results == SlicePrefix(RankFlights(flights, QueryOf(req)), QueryOf(req).limit)
    ensures r.Found? ==> forall i :: 0 <= i < |r.results| ==>
      Admits(QueryOf(req), r.results[i]) && r.results[i] in flights
    ensures r.Found? ==> Sorted(r.results, FlightLe)
    ensures r.Found? && QueryOf(req).limit >= 0 ==> |r.results| <= QueryOf(req).limit
    ensures r.Found? ==> |r.results| <= r.count
  {
    match MissingField(req)
    case Some(k) => Failed("Missing " + k)
    case None => Answer(flights, QueryOf(req))
  }

  /** The successful answer to a validated query: how many flights it
      admits, and the first `limit` of their ranking. */
  function Answer(flights: seq<Flight>, q: FlightQuery): (r: SearchResponse<Flight>)
    ensures r.Found? && r.count == |Matching(flights, q)|
    ensures r.results == SlicePrefix(RankFlights(flights, q), q.limit)
    ensures forall i :: 0 <= i < |r.results| ==> Admits(q, r.results[i]) && r.results[i] in flights
    ensures Sorted(r.results, FlightLe)
    ensures q.limit >= 0 ==> |r.results| <= q.limit
    ensures |r.results| <= r.count
  {
    RankingSlice(flights, q);
    var ranked := RankFlights(flights, q);
    Found(|ranked|, SlicePrefix(ranked, q.limit))
  }

  /** The first `limit` of the ranking are admitted, dataset flights, in
      ranking order, and the ranking holds every admitted flight. */
  lemma RankingSlice(flights: seq<Flight>, q: FlightQuery)
    ensures |RankFlights(flights, q)| == |Matching(flights, q)|
    ensures forall f :: f in SlicePrefix(RankFlights(flights, q), q.limit) ==> Admits(q, f) && f in flights
    ensures Sorted(SlicePrefix(RankFlights(flights, q), q.limit), FlightLe)
  {
    var ranked := RankFlights(flights, q);
    RankedFlightsSound(flights, q);
    assert |ranked| == |Matching(flights, q)| by {
      assert |multiset(ranked)| == |multiset(Matching(flights, q))|;
    }
    var results := SlicePrefix(ranked, q.limit);
    assert forall i :: 0 <= i < |results| ==> results[i] == ranked[i];
  }

  /** The non-stop example: of two flights on the requested route and
      date, only the direct one is returned, although the other is
      cheaper. */
  lemma NonStopExample(direct: Flight, oneStop: Flight, src: string, dst: string, date: string, req: FlightRequest)
    requires src != [] && !IsSpace(src[0]) && !IsSpace(src[|src| - 1])
    requires dst != [] && !IsSpace(dst[0]) && !IsSpace(dst[|dst| - 1])
    requires date != []
    requires direct.source == oneStop.source == Some(src)
    requires direct.destination == oneStop.destination == Some(dst)
    requires direct.departureDate == oneStop.departureDate == Some(date)
    requires direct.stops == Some(0) && direct.price == Some(4200.0)
    requires oneStop.stops == Some(1) && oneStop.price == Some(3000.0)
    requires req == FlightRequest(Some(src), Some(dst), Some(date), Some(true), None, None)
    ensures SearchFlights([direct, oneStop], req) == Found(1, [direct])
  {
    var q := QueryOf(req);
    assert Strip(src) == src && Strip(dst) == dst;
    assert q == FlightQuery(src, dst, date, true, "", 5);
    NonStopMatching(direct, oneStop, q);
    var ranked := RankFlights([direct, oneStop], q);
    assert |multiset(ranked)| == 1;
    assert ranked[0] in multiset(ranked);
    assert ranked == [direct];
    assert SlicePrefix(ranked, 5) == ranked;
  }

  lemma NonStopMatching(direct: Flight, oneStop: Flight, q: FlightQuery)
    requires q.src != [] && !IsSpace(q.src[0]) && !IsSpace(q.src[|q.src| - 1])
    requires q.dst != [] && !IsSpace(q.dst[0]) && !IsSpace(q.dst[|q.dst| - 1])
    requires direct.source == Some(q.src) && direct.destination == Some(q.dst)
    requires direct.departureDate == Some(q.date)
    requires direct.stops == Some(0) && oneStop.stops == Some(1)
    requires q.nonStop && q.window == ""
    ensures Matching([direct, oneStop], q) == [direct]
  {
    TokenMatchesItself(q.src, [direct.source.GetOr("")], [direct.sourceCity.GetOr("")]);
    TokenMatchesItself(q.dst, [direct.destination.GetOr("")], [direct.destinationCity.GetOr("")]);
    assert Admits(q, direct) && !Admits(q, oneStop);
    assert [oneStop] == [oneStop] + [];
    FilterCons(oneStop, [], AdmitsFn(q));
    assert [direct, oneStop] == [direct] + [oneStop];
    FilterCons(direct, [oneStop], AdmitsFn(q));
  }
}

=== FILE: hotels.dfy ===
/** The hotel query engine of the tool host (`search_hotels_tool` in
    mcpHost.py): validates the request, keeps the hotels in the requested
    city that meet the optional price ceiling and rating floor, ranks them
    by score (highest first) then nightly price (cheapest first) with a
    stable sort, and returns the match count with the first `limit` ranked
    hotels. */
module Hotels {
  import opened Wrappers
  import opened Text
  import opened Seqs
  import opened StableSort
  import opened Json
  import opened Matcher
  import opened Responses

  /** A record of the hotel dataset; `None` marks a key the record lacks. */
  datatype Hotel = Hotel(
    name: Option<string>,
    city: Option<string>,
    pricePerNight: Option<real>,
    rating: Option<real>,
    reviewScore: Option<real>)

  /** The body of a hotel search request. The numeric criteria arrive as
      whatever JSON the caller sent; `None` marks an absent key. */
  datatype HotelRequest = HotelRequest(
    city: Option<string>,
    maxPrice: Option<Json>,
    minRating: Option<Json>,
    limit: Option<int>)

  /** A validated request: the city in compared form, the bounds that
      parsed (`None` switches the filter off) and the limit. */
  datatype HotelQuery = HotelQuery(
    city: string, maxPrice: Option<real>, minRating: Option<real>, limit: int)

  /** A numeric criterion: skipped when absent or `null`, otherwise read
      with `float()`; a value `float()` rejects skips the filter too. */
  function Bound(o: Option<Json>): (r: Option<real>)
    ensures o.None? || o == Some(JNull) ==> r.None?
    ensures o.Some? ==> r == ToFloat(o.value)
  {
    match o
    case None => None
    case Some(v) => ToFloat(v)
  }

  /** Python truthiness of the optional `city`. */
  predicate HasCity(req: HotelRequest) {
    req.city.Some? && req.city.value != []
  }

  function QueryOf(req: HotelRequest): HotelQuery
    requires HasCity(req)
  {
    HotelQuery(Normal(req.city.value), Bound(req.maxPrice), Bound(req.minRating), req.limit.GetOr(DefaultLimit))
  }

  function PriceOf(h: Hotel): real {
    h.pricePerNight.GetOr(PriceDefault)
  }

  /** The rating the floor is checked against: `rating`, else
      `review_score`, else 0. */
  function RatingOf(h: Hotel): (r: real)
    ensures h.rating.Some? ==> r == h.rating.value
    ensures h.rating.None? || h.reviewScore.None? ==> r == ScoreOf(h)
  {
    h.rating.GetOr(h.reviewScore.GetOr(0.0))
  }

  /** The score the ranking uses: `review_score`, else `rating`, else 0 (the
      opposite priority to `RatingOf`). */
  function ScoreOf(h: Hotel): (r: real)
    ensures h.reviewScore.Some? ==> r == h.reviewScore.value
    ensures h.reviewScore.None? && h.rating.None? ==> r == 0.0
  {
    h.reviewScore.GetOr(h.rating.GetOr(0.0))
  }

  /** The record's city in compared form equals the requested one; a record
      without a city counts as `""`. */
  predicate InCity(city: string, h: Hotel) {
    Normal(h.city.GetOr("")) == city
  }

  /** Every criterion at once: the reference the staged filtering of the
      engine is proved against. */
  predicate Admits(q: HotelQuery, h: Hotel) {
    && InCity(q.city, h)
    && (q.maxPrice.Some? ==> PriceOf(h) <= q.maxPrice.value)
    && (q.minRating.Some? ==> RatingOf(h) >= q.minRating.value)
  }

  function AdmitsFn(q: HotelQuery): Hotel -> bool {
    h => Admits(q, h)
  }

  function InCityFn(city: string): Hotel -> bool {
    h => InCity(city, h)
  }

  function UnderFn(mp: real): Hotel -> bool {
    h => PriceOf(h) <= mp
  }

  function AboveFn(mr: real): Hotel -> bool {
    h => RatingOf(h) >= mr
  }

  function CityAndPriceFn(q: HotelQuery): Hotel -> bool {
    h => InCity(q.city, h) && (q.maxPrice.Some? ==> PriceOf(h) <= q.maxPrice.value)
  }

  /** The hotels a query admits, in dataset order. */
  function Matching(hotels: seq<Hotel>, q: HotelQuery): seq<Hotel> {
    Filter(hotels, AdmitsFn(q))
  }

  /** The filtering as the engine stages it: city, then the price ceiling
      if it parsed, then the rating floor if it parsed. It keeps exactly the
      admitted hotels, in dataset order. */
  function FilterHotels(hotels: seq<Hotel>, q: HotelQuery): (r: seq<Hotel>)
    ensures r == Matching(hotels, q)
  {
    var inCity := Filter(hotels, InCityFn(q.city));
    var affordable := if q.maxPrice.Some? then Filter(inCity, UnderFn(q.maxPrice.value)) else inCity;
    PriceStage(hotels, q);
    RatingStage(hotels, q);
    if q.minRating.Some? then Filter(affordable, AboveFn(q.minRating.value)) else affordable
  }

  lemma PriceStage(hotels: seq<Hotel>, q: HotelQuery)
    ensures (if q.maxPrice.Some? then Filter(Filter(hotels, InCityFn(q.city)), UnderFn(q.maxPrice.value))
             else Filter(hotels, InCityFn(q.city)))
         == Filter(hotels, CityAndPriceFn(q))
  {
    if q.maxPrice.Some? {
      forall h | h in hotels
        ensures CityAndPriceFn(q)(h) == (InCityFn(q.city)(h) && UnderFn(q.maxPrice.value)(h)) {
      }
      FilterTwice(hotels, InCityFn(q.city), UnderFn(q.maxPrice.value), CityAndPriceFn(q));
    } else {
      forall h | h in hotels ensures InCityFn(q.city)(h) == CityAndPriceFn(q)(h) {
      }
      FilterAgree(hotels, InCityFn(q.city), CityAndPriceFn(q));
    }
  }

  lemma RatingStage(hotels: seq<Hotel>, q: HotelQuery)
    ensures (if q.minRating.Some? then Filter(Filter(hotels, CityAndPriceFn(q)), AboveFn(q.minRating.value))
             else Filter(hotels, CityAndPriceFn(q)))
         == Matching(hotels, q)
  {
    if q.minRating.Some? {
      forall h | h in hotels
        ensures AdmitsFn(q)(h) == (CityAndPriceFn(q)(h) && AboveFn(q.minRating.value)(h)) {
      }
      FilterTwice(hotels, CityAndPriceFn(q), AboveFn(q.minRating.value), AdmitsFn(q));
    } else {
      forall h | h in hotels ensures CityAndPriceFn(q)(h) == AdmitsFn(q)(h) {
      }
      FilterAgree(hotels, CityAndPriceFn(q), AdmitsFn(q));
    }
  }

  /** Python's `<=` on the keys `(-score, price)`: the higher score first,
      then the lower price. */
  predicate HotelLe(a: Hotel, b: Hotel) {
    ScoreOf(a) > ScoreOf(b) || (ScoreOf(a) == ScoreOf(b) && PriceOf(a) <= PriceOf(b))
  }

  lemma HotelLeIsTotalPreorder()
    ensures TotalPreorder(HotelLe)
  {
  }

  /** Two hotels tie in the ranking exactly when score and price agree. */
  lemma HotelTiesShareKey(a: Hotel, b: Hotel)
    ensures Tied(HotelLe, a, b) <==> ScoreOf(a) == ScoreOf(b) && PriceOf(a) == PriceOf(b)
  {
  }

  /** The admitted hotels after `hs.sort(key=hotel_key)`: best score first,
      cheaper first among equal scores, ties in dataset order. */
  function RankHotels(hotels: seq<Hotel>, q: HotelQuery): (ranked: seq<Hotel>)
    ensures StablySorts(ranked, Matching(hotels, q), HotelLe)
    ensures multiset(ranked) == multiset(Matching(hotels, q))
  {
    HotelLeIsTotalPreorder();
    InsertionSortIsStable(Matching(hotels, q), HotelLe);
    InsertionSort(FilterHotels(hotels, q), HotelLe)
  }

  /** Python's sort is stable too, so it returns exactly this ranking. */
  lemma RankingIsTheStableSort(hotels: seq<Hotel>, q: HotelQuery, r: seq<Hotel>)
    requires StablySorts(r, Matching(hotels, q), HotelLe)
    ensures r == RankHotels(hotels, q)
  {
    HotelLeIsTotalPreorder();
    StableSortUnique(r, RankHotels(hotels, q), Matching(hotels, q), HotelLe);
  }

  /** Every ranked hotel is admitted by the query and comes from the
      dataset. */
  lemma RankedHotelsSound(hotels: seq<Hotel>, q: HotelQuery)
    ensures forall i :: 0 <= i < |RankHotels(hotels, q)| ==>
      Admits(q, RankHotels(hotels, q)[i]) && RankHotels(hotels, q)[i] in hotels
  {
    PermutedFilterSound(RankHotels(hotels, q), hotels, AdmitsFn(q));
  }

  /** `search_hotels_tool`. An absent or empty `city` is reported without
      filtering. Otherwise the count is the number of admitted hotels and
      the results are the first `limit` of their ranking (Python slice
      semantics). */
  function SearchHotels(hotels: seq<Hotel>, req: HotelRequest): (r: SearchResponse<Hotel>)
    ensures r.Failed? <==> !HasCity(req)
    ensures r.Failed? ==> r.message == "Missing city"
    ensures r.Found? ==> r.count == |Matching(hotels, QueryOf(req))|
    ensures r.Found? ==> r.results == SlicePrefix(RankHotels(hotels, QueryOf(req)), QueryOf(req).limit)
    ensures r.Found? ==> forall i :: 0 <= i < |r.results| ==>
      Admits(QueryOf(req), r.results[i]) && r.results[i] in hotels
    ensures r.Found? ==> Sorted(r.results, HotelLe)
    ensures r.Found? && QueryOf(req).limit >= 0 ==> |r.results| <= QueryOf(req).limit
    ensures r.Found? ==> |r.results| <= r.count
  {
    if !HasCity(req) then Failed("Missing city")
    else Answer(hotels, QueryOf(req))
  }

  /** The successful answer to a validated query: how many hotels it
      admits, and the first `limit` of their ranking. */
  function Answer(hotels: seq<Hotel>, q: HotelQuery): (r: SearchResponse<Hotel>)
    ensures r.Found? && r.count == |Matching(hotels, q)|
    ensures r.results == SlicePrefix(RankHotels(hotels, q), q.limit)
    ensures forall i :: 0 <= i < |r.results| ==> Admits(q, r.results[i]) && r.results[i] in hotels
    ensures Sorted(r.results, HotelLe)
    ensures q.limit >= 0 ==> |r.results| <= q.limit
    ensures |r.results| <= r.count
  {
    RankingSlice(hotels, q);
    var ranked := RankHotels(hotels, q);
    Found(|ranked|, SlicePrefix(ranked, q.limit))
  }

  /** The first `limit` of the ranking are admitted, dataset hotels, in
      ranking order, and the ranking holds every admitted hotel. */
  lemma RankingSlice(hotels: seq<Hotel>, q: HotelQuery)
    ensures |RankHotels(hotels, q)| == |Matching(hotels, q)|
    ensures forall h :: h in SlicePrefix(RankHotels(hotels, q), q.limit) ==> Admits(q, h) && h in hotels
    ensures Sorted(SlicePrefix(RankHotels(hotels, q), q.limit), HotelLe)
  {
    var ranked := RankHotels(hotels, q);
    RankedHotelsSound(hotels, q);
    assert |ranked| == |Matching(hotels, q)| by {
      assert |multiset(ranked)| == |multiset(Matching(hotels, q))|;
    }
    var results := SlicePrefix(ranked, q.limit);
    assert forall i :: 0 <= i < |results| ==> results[i] == ranked[i];
  }

  /** A price cap the model's numeral reader cannot read (a word, say) is skipped: the query
      is the one made without a cap, so the list is as the other criteria
      make it. */
  lemma UnreadableBoundIsSkipped(hotels: seq<Hotel>, req: HotelRequest, w: string)
    requires HasCity(req)
    requires req.maxPrice == Some(JStr(w)) && !AllOf(Strip(w), Numerals.IsNumeralChar)
    ensures QueryOf(req) == QueryOf(req.(maxPrice := None))
    ensures SearchHotels(hotels, req) == SearchHotels(hotels, req.(maxPrice := None))
  {
  }

  /** A whitespace-only city passes validation (it is a non-empty string)
      and then matches exactly the records whose city is missing or blank. */
  lemma BlankCityMatchesCitylessHotels(req: HotelRequest, h: Hotel)
    requires req.city.Some? && req.city.value != [] && AllOf(req.city.value, IsSpace)
    ensures HasCity(req)
    ensures InCity(QueryOf(req).city, h) <==> AllOf(h.city.GetOr(""), IsSpace)
  {
  }

  /** The rating floor and the ranking read the two rating keys in opposite
      orders: a record rated 3.0 with a review score of 4.8 fails a 4.0
      floor, yet would rank as a 4.8. */
  lemma FloorAndScoreDisagree(h: Hotel)
    requires h.rating == Some(3.0) && h.reviewScore == Some(4.8)
    ensures RatingOf(h) < 4.0 <= ScoreOf(h)
  {
  }

  /** The two readings differ only for a record that carries both keys
      with different values. */
  lemma RatingsDisagreeOnlyWithBothKeys(h: Hotel)
    ensures RatingOf(h) != ScoreOf(h) ==> h.rating.Some? && h.reviewScore.Some? && h.rating != h.reviewScore
  {
  }

  /** The rating-floor example: of three hotels in the requested city, the
      one below the floor is dropped and the two equally rated ones come
      cheaper first. */
  lemma RatingFloorExample(h1: Hotel, h2: Hotel, h3: Hotel, city: string, req: HotelRequest)
    requires city != []
    requires h1.city == h2.city == h3.city == Some(city)
    requires h1.reviewScore.None? && h2.reviewScore.None? && h3.reviewScore.None?
    requires h1.rating == Some(4.5) && h1.pricePerNight == Some(6000.0)
    requires h2.rating == Some(3.9) && h2.pricePerNight == Some(2000.0)
    requires h3.rating == Some(4.5) && h3.pricePerNight == Some(5000.0)
    requires req == HotelRequest(Some(city), None, Some(JNum(4.0)), None)
    ensures SearchHotels([h1, h2, h3], req) == Found(2, [h3, h1])
  {
    var q := QueryOf(req);
    assert q == HotelQuery(Normal(city), None, Some(4.0), 5);
    RatingFloorMatching(h1, h2, h3, q);
    CheaperFirst([h1, h2, h3], q, h1, h3);
  }

  /** When two hotels of equal score are admitted, the cheaper one is
      ranked first. */
  lemma CheaperFirst(hotels: seq<Hotel>, q: HotelQuery, a: Hotel, b: Hotel)
    requires Matching(hotels, q) == [a, b]
    requires ScoreOf(a) == ScoreOf(b) && PriceOf(b) < PriceOf(a)
    ensures RankHotels(hotels, q) == [b, a]
  {
    SortedPair(RankHotels(hotels, q), a, b, HotelLe);
  }

  lemma RatingFloorMatching(h1: Hotel, h2: Hotel, h3: Hotel, q: HotelQuery)
    requires h1.city == h2.city == h3.city && q.city == Normal(h1.city.GetOr(""))
    requires h1.reviewScore.None? && h2.reviewScore.None? && h3.reviewScore.None?
    requires h1.rating == Some(4.5) && h2.rating == Some(3.9) && h3.rating == Some(4.5)
    requires q.maxPrice.None? && q.minRating == Some(4.0)
    ensures Matching([h1, h2, h3], q) == [h1, h3]
  {
    assert InCity(q.city, h1) && InCity(q.city, h2) && InCity(q.city, h3);
    assert RatingOf(h1) == 4.5 && RatingOf(h2) == 3.9 && RatingOf(h3) == 4.5;
    FilterDropsMiddle(h1, h2, h3, AdmitsFn(q));
  }
}

=== FILE: itinerary.dfy ===
/** The itinerary persistence store of the tool host
    (`persist_itinerary_tool` in mcpHost.py): a validated request becomes a
    trip record appended to the in-memory trip collection, which is then
    written back to its file. */
module Itinerary {
  import opened Wrappers
  import opened Json
  import opened Dataset

  /** The body of a persist request; `None` marks an absent key. */
  datatype PersistRequest = PersistRequest(userId: Option<Json>, itinerary: Option<Json>, meta: Option<Json>)

  /** How the rewrite of the trips file went. The file system is outside the
      model, so the outcome is an input. */
  datatype WriteOutcome = Written | WriteFailed(reason: string)

  /** `{"status": "success", "message": "itinerary persisted", "trip": ...}`
      or `{"status": "error", "message": ...}`. */
  datatype PersistResponse = Persisted(trip: Json) | PersistFailed(message: string)

  /** The trip collection after the call, and the response. */
  datatype PersistOutcome = PersistOutcome(trips: seq<Json>, response: PersistResponse)

  const MissingMessage: string := "Missing userId or itinerary"

  /** Both `userId` and `itinerary` are present and truthy. */
  predicate Complete(req: PersistRequest) {
    && req.userId.Some? && Truthy(req.userId.value)
    && req.itinerary.Some? && Truthy(req.itinerary.value)
  }

  /** The record a complete request is stored as; an absent `meta` is `{}`,
      an explicit `null` is kept. */
  function NewTrip(req: PersistRequest): (trip: Json)
    requires Complete(req)
    ensures Get(trip, "userId") == req.userId
    ensures Get(trip, "itinerary") == req.itinerary
    ensures Get(trip, "meta") == Some(req.meta.GetOr(JObj([])))
    ensures trip.JObj? && |trip.fields| == 3
  {
    var fields := [("userId", req.userId.value), ("itinerary", req.itinerary.value), ("meta", req.meta.GetOr(JObj([])))];
    assert |"meta"| != |"userId"| && |"meta"| != |"itinerary"| && |"itinerary"| != |"userId"|;
    assert fields[..2][..1] == [fields[0]];
    assert Lookup(fields, "itinerary") == Lookup(fields[..2], "itinerary");
    assert Lookup(fields, "userId") == Lookup(fields[..2], "userId") == Lookup(fields[..2][..1], "userId");
    JObj(fields)
  }

  /** `persist_itinerary_tool`. An incomplete request changes nothing and is
      reported. Otherwise the new trip is appended first and the file is
      rewritten from the grown collection; a failed write is reported with
      its reason but the trip stays in memory. */
  function Persist(trips: seq<Json>, req: PersistRequest, write: WriteOutcome): (out: PersistOutcome)
    ensures !Complete(req) ==> out == PersistOutcome(trips, PersistFailed(MissingMessage))
    ensures Complete(req) ==> |out.trips| == |trips| + 1 && out.trips[..|trips|] == trips
    ensures Complete(req) ==> out.trips[|trips|] == NewTrip(req)
    ensures Complete(req) ==> Get(out.trips[|trips|], "userId") == req.userId
    ensures Complete(req) ==> Get(out.trips[|trips|], "itinerary") == req.itinerary
    ensures Complete(req) ==> Get(out.trips[|trips|], "meta") == Some(req.meta.GetOr(JObj([])))
    ensures Complete(req) && write.Written? ==> out.response == Persisted(out.trips[|trips|])
    ensures Complete(req) && write.WriteFailed? ==> out.response == PersistFailed(write.reason)
  {
    if !Complete(req) then PersistOutcome(trips, PersistFailed(MissingMessage))
    else
      var trip := NewTrip(req);
      var grown := trips + [trip];
      assert grown[..|trips|] == trips;
      match write
      case Written => PersistOutcome(grown, Persisted(trip))
      case WriteFailed(reason) => PersistOutcome(grown, PersistFailed(reason))
  }

  /** The collection only ever grows at its end: what was there stays. */
  lemma PersistIsAppendOnly(trips: seq<Json>, req: PersistRequest, write: WriteOutcome)
    ensures trips <= Persist(trips, req, write).trips
    ensures |Persist(trips, req, write).trips| <= |trips| + 1
  {
  }

  /** After a successful write the file holds the whole collection, so a
      restart loads exactly the trips in memory. */
  lemma PersistedFileReloads(trips: seq<Json>, req: PersistRequest)
    requires Complete(req)
    ensures Load(Present(Document(Persist(trips, req, Written).trips))) == Persist(trips, req, Written).trips
  {
  }

  /** Two persists for the same user in a row: the collection grows by
      exactly two and holds both itineraries, in order, unchanged. */
  lemma PersistTwice(trips: seq<Json>, a: PersistRequest, b: PersistRequest, w1: WriteOutcome, w2: WriteOutcome)
    requires Complete(a) && Complete(b) && a.userId == b.userId
    ensures var after := Persist(Persist(trips, a, w1).trips, b, w2).trips;
      && |after| == |trips| + 2
      && after[..|trips|] == trips
      && Get(after[|trips|], "itinerary") == a.itinerary
      && Get(after[|trips| + 1], "itinerary") == b.itinerary
      && Get(after[|trips|], "userId") == Get(after[|trips| + 1], "userId") == a.userId
  {
    var once := Persist(trips, a, w1).trips;
    var after := Persist(once, b, w2).trips;
    assert after[..|once|] == once;
    assert after[|trips|] == once[|trips|];
    assert after[..|trips|] == once[..|trips|];
  }

  /** A falsy `userId` (here the empty string) is refused even when the
      itinerary is present. */
  lemma EmptyUserIdRefused(trips: seq<Json>, itinerary: Json, write: WriteOutcome)
    ensures Persist(trips, PersistRequest(Some(JStr("")), Some(itinerary), None), write).response
         == PersistFailed(MissingMessage)
  {
  }
}

=== FILE: json.dfy ===
/** Decoded JSON values, as `json.load` hands them to the tool host: the
    itinerary payloads and trip records are kept in this form, untouched. */
module Json {
  import opened Wrappers
  import opened Text
  import Numerals

  datatype Json =
    | JNull
    | JBool(b: bool)
    | JNum(n: real)
    | JStr(s: string)
    | JArr(items: seq<Json>)
    | JObj(fields: seq<(string, Json)>)

  /** Python truthiness of a decoded value: `None`, `False`, `0`, `""`, `[]`
      and `{}` are false, everything else is true. */
  predicate Truthy(j: Json)
    ensures !Truthy(j) <==> j in [JNull, JBool(false), JNum(0.0), JStr(""), JArr([]), JObj([])]
  {
    match j
    case JNull => false
    case JBool(b) => b
    case JNum(n) => n != 0.0
    case JStr(s) => s != []
    case JArr(items) => items != []
    case JObj(fields) => fields != []
  }

  /** A number sent as its decimal string reads as the number itself. */
  lemma NumeralReadsAsNumber(n: nat)
    ensures ToFloat(JStr(Numerals.ShowNat(n))) == ToFloat(JNum(n as real))
  {
    Numerals.ParseFloatOfNat(n, "");
    assert "" + Numerals.ShowNat(n) + "" == Numerals.ShowNat(n);
  }

  /** The value bound to `key` in a list of bindings; a later binding of the
      same key hides an earlier one, as in a Python dict built from them. */
  function Lookup(fields: seq<(string, Json)>, key: string): Option<Json> {
    if fields == [] then None
    else if fields[|fields| - 1].0 == key then Some(fields[|fields| - 1].1)
    else Lookup(fields[..|fields| - 1], key)
  }

  /** Python's `d.get(key)` on a decoded object; `None` for a missing key
      or a value that is not an object. */
  function Get(j: Json, key: string): Option<Json> {
    if j.JObj? then Lookup(j.fields, key) else None
  }

  /** Python's `float(v)` on a decoded value: a number is itself, a boolean
      is 1.0 or 0.0, a string is parsed; `None`, lists and dicts raise, which
      is `None` here. */
  function ToFloat(j: Json): (r: Option<real>)
    ensures j.JNum? ==> r == Some(j.n)
    ensures j.JBool? ==> r == Some(if j.b then 1.0 else 0.0)
    ensures j.JNull? || j.JArr? || j.JObj? ==> r.None?
    ensures j.JStr? ==> r == Numerals.ParseFloat(j.s)
    ensures j.JStr? && r.Some? ==> j.s != [] && AllOf(Strip(j.s), Numerals.IsNumeralChar)
  {
    match j
    case JNum(n) => Some(n)
    case JBool(b) => Some(if b then 1.0 else 0.0)
    case JStr(s) => Numerals.ParseFloat(s)
    case _ => None
  }
}

=== FILE: matcher.dfy ===
/** The location matcher of the tool host (`_match_city_or_code` in
    mcpHost.py): a user-supplied airport code or city name is compared,
    exactly and without regard to ASCII case, with a record's candidates. */
module Matcher {
  import opened Wrappers
  import opened Text

  /** The form a token is compared in: stripped, then lower-cased. */
  function Normal(s: string): string {
    Lower(Strip(s))
  }

  /** Some candidate in `cs`, lower-cased, is exactly `v`. */
  function AnyLowersTo(v: string, cs: seq<string>): (r: bool)
    ensures r <==> exists c :: c in cs && Lower(c) == v
  {
    if cs == [] then false
    else
      assert forall c :: c in cs ==> c == cs[0] || c in cs[1..];
      Lower(cs[0]) == v || AnyLowersTo(v, cs[1..])
  }

  /** `_match_city_or_code(value, codes, cities)`: the token (`None` read as
      the empty string) is stripped and lower-cased; an empty result matches
      nothing; otherwise it must equal some candidate code or city name once
      that candidate is lower-cased. Candidates are not stripped. */
  function MatchCityOrCode(value: Option<string>, codes: seq<string>, cities: seq<string>): (r: bool)
    ensures r <==>
      Normal(value.GetOr("")) != [] &&
      exists c :: (c in codes || c in cities) && Lower(c) == Normal(value.GetOr(""))
  {
    var v := Lower(Strip(value.GetOr("")));
    if v == [] then false
    else if AnyLowersTo(v, codes) then true
    else AnyLowersTo(v, cities)
  }

  /** A missing, empty or whitespace-only token matches no candidate, not
      even an empty one. */
  lemma BlankTokenNeverMatches(value: Option<string>, codes: seq<string>, cities: seq<string>)
    requires value.None? || AllOf(value.value, IsSpace)
    ensures !MatchCityOrCode(value, codes, cities)
  {
  }

  /** The token's letter case does not matter. */
  lemma MatchIgnoresTokenCase(token: string, codes: seq<string>, cities: seq<string>)
    ensures MatchCityOrCode(Some(Lower(token)), codes, cities) == MatchCityOrCode(Some(token), codes, cities)
  {
    StripLowerCommute(token);
    LowerIdempotent(Strip(token));
  }

  /** Whitespace around the token does not matter. */
  lemma MatchIgnoresTokenPadding(pre: string, token: string, post: string, codes: seq<string>, cities: seq<string>)
    requires AllOf(pre, IsSpace) && AllOf(post, IsSpace)
    requires token != [] && !IsSpace(token[0]) && !IsSpace(token[|token| - 1])
    ensures MatchCityOrCode(Some(pre + token + post), codes, cities) == MatchCityOrCode(Some(token), codes, cities)
  {
    TrimFramed(pre, token, post, IsSpace);
  }

  /** A token without padding matches a candidate equal to it. */
  lemma TokenMatchesItself(token: string, codes: seq<string>, cities: seq<string>)
    requires token != [] && !IsSpace(token[0]) && !IsSpace(token[|token| - 1])
    requires token in codes || token in cities
    ensures MatchCityOrCode(Some(token), codes, cities)
  {
    assert Strip(token) == token;
  }

  /** A padded, lower-case code matches its upper-case candidate. */
  lemma PaddedCodeMatches()
    ensures MatchCityOrCode(Some(" del "), ["DEL"], ["Delhi"])
  {
    StripPaddedDel();
    assert Normal(" del ") == Lower("DEL");
    assert "DEL" in ["DEL"];
  }

  lemma StripPaddedDel()
    ensures Strip(" del ") == "del"
  {
    assert " " + "del" + " " == " del ";
    StripSpaced("del");
  }

  lemma StripSpaced(t: string)
    requires t != [] && !IsSpace(t[0]) && !IsSpace(t[|t| - 1])
    ensures Strip(" " + t + " ") == t
  {
    assert AllOf(" ", IsSpace);
    TrimFramed(" ", t, " ", IsSpace);
  }

  /** A city name matches whatever its case. */
  lemma CityNameMatches()
    ensures MatchCityOrCode(Some("DELHI"), ["DEL"], ["Delhi"])
  {
    assert Strip("DELHI") == "DELHI";
    assert Lower("Delhi") == "delhi" == Lower("DELHI");
  }

  /** A prefix of a code is not a match. */
  lemma CodePrefixDoesNotMatch()
    ensures !MatchCityOrCode(Some("DE"), ["DEL"], ["Delhi"])
  {
    assert Strip("DE") == "DE";
    assert |Lower("DE")| == 2;
  }

  /** Part of a city name is not a match. */
  lemma PartOfCityDoesNotMatch()
    ensures !MatchCityOrCode(Some("Delhi"), ["DEL"], ["New Delhi"])
  {
    assert Strip("Delhi") == "Delhi";
    assert |Lower("Delhi")| == 5;
  }

  /** Candidates are not stripped: a padded candidate never matches. */
  lemma PaddedCandidateDoesNotMatch()
    ensures !MatchCityOrCode(Some("DEL"), [" DEL"], [])
  {
    assert Strip("DEL") == "DEL";
    assert Lower("DEL")[0] == 'd';
    assert Lower(" DEL")[0] == ' ';
  }
}

=== FILE: modulename.dfy ===
/** The agent module selector of the agent package (`_normalize_module_name`
    in __init__.py): a module name given as a dotted name, a path with `/`
    or `\` separators, or a file name ending in `.py` is brought to dotted
    form. */
module ModuleName {
  import opened Wrappers
  import opened Text

  /** The module loaded when none is named. */
  const Default: string := "agent"

  predicate IsSeparator(c: char) {
    c == '/' || c == '\\'
  }

  predicate IsSlash(c: char) {
    c == '/'
  }

  /** A name with a trailing `.py` has it removed, once. */
  function DropPySuffix(n: string): (r: string)
    ensures EndsWith(n, ".py") ==> n == r + ".py"
    ensures !EndsWith(n, ".py") ==> r == n
  {
    if EndsWith(n, ".py") then n[..|n| - 3] else n
  }

  /** `_normalize_module_name`: an absent or empty name is the default;
      otherwise the name is stripped, loses one `.py` suffix, has `\` turned
      into `/`, loses leading and trailing `/` and has the rest turned into
      `.`; an empty outcome is the default again. */
  function NormalizeModuleName(name: Option<string>): (r: string)
    ensures r != []
    ensures '/' !in r && '\\' !in r
    ensures name.None? || Strip(name.value) == [] ==> r == Default
  {
    if name.None? || name.value == [] then Default
    else
      var n1 := DropPySuffix(Strip(name.value));
      var n2 := ReplaceChar(n1, '\\', '/');
      var n3 := Trim(n2, IsSlash);
      var n4 := ReplaceChar(n3, '/', '.');
      TrimAddsNothing(n2, IsSlash, '\\');
      SlashesReplaced(n3);
      assert n1 == [] ==> n4 == [];
      if n4 == [] then Default else n4
  }

  /** Once backslashes are gone, replacing slashes leaves no separator. */
  lemma SlashesReplaced(n: string)
    requires '\\' !in n
    ensures '/' !in ReplaceChar(n, '/', '.') && '\\' !in ReplaceChar(n, '/', '.')
  {
    var r := ReplaceChar(n, '/', '.');
    forall k | 0 <= k < |r| ensures r[k] != '/' && r[k] != '\\' {
      assert n[k] in n;
    }
  }

  function DotChar(c: char): char {
    if IsSeparator(c) then '.' else c
  }

  /** Each separator, as the body of a path, becomes a dot. */
  function Dotted(s: string): (r: string)
    ensures |r| == |s|
    ensures forall k :: 0 <= k < |s| ==> (r[k] == '.' <==> s[k] == '.' || IsSeparator(s[k]))
    ensures forall k :: 0 <= k < |s| && !IsSeparator(s[k]) ==> r[k] == s[k]
  {
    seq(|s|, k requires 0 <= k < |s| => DotChar(s[k]))
  }

  /** The two replacements the normaliser makes turn every separator into a
      dot. */
  lemma ReplacementsDot(s: string)
    ensures ReplaceChar(ReplaceChar(s, '\\', '/'), '/', '.') == Dotted(s)
  {
    var r := ReplaceChar(ReplaceChar(s, '\\', '/'), '/', '.');
    assert forall k :: 0 <= k < |s| ==> r[k] == Dotted(s)[k];
  }

  /** A name with no padding whose `.py`-less form has no separator at
      either end comes back as that form with its separators as dots. */
  lemma UnpaddedNameBecomesDotted(s: string)
    requires s != [] && !IsSpace(s[0]) && !IsSpace(s[|s| - 1])
    requires DropPySuffix(s) != []
    requires !IsSeparator(DropPySuffix(s)[0]) && !IsSeparator(DropPySuffix(s)[|DropPySuffix(s)| - 1])
    ensures NormalizeModuleName(Some(s)) == Dotted(DropPySuffix(s))
  {
    assert Strip(s) == s;
    var d := DropPySuffix(s);
    var t := ReplaceChar(d, '\\', '/');
    assert !IsSlash(t[0]) && !IsSlash(t[|t| - 1]);
    assert Trim(t, IsSlash) == t;
    ReplacementsDot(d);
  }

  /** A path with no padding, no separator at either end and no `.py`
      suffix comes back with its separators as dots. */
  lemma PathBecomesDotted(s: string)
    requires s != [] && !IsSpace(s[0]) && !IsSpace(s[|s| - 1])
    requires !IsSeparator(s[0]) && !IsSeparator(s[|s| - 1])
    requires !EndsWith(s, ".py")
    ensures NormalizeModuleName(Some(s)) == Dotted(s)
  {
    UnpaddedNameBecomesDotted(s);
  }

  /** A plain module name is returned as it is. */
  lemma CleanNameUnchanged(s: string)
    requires s != [] && !IsSpace(s[0]) && !IsSpace(s[|s| - 1])
    requires forall k :: 0 <= k < |s| ==> !IsSeparator(s[k])
    requires !EndsWith(s, ".py")
    ensures NormalizeModuleName(Some(s)) == s
  {
    PathBecomesDotted(s);
    DottedPlain(s);
  }

  /** The general case: once the name is stripped and has lost its `.py`,
      any run of separators at either end is dropped and the core, whose
      ends are not separators, comes back with its separators as dots. */
  lemma FramedNameBecomesDotted(name: string, p: string, c: string, q: string)
    requires DropPySuffix(Strip(name)) == p + c + q
    requires AllOf(p, IsSeparator) && AllOf(q, IsSeparator)
    requires c != [] && !IsSeparator(c[0]) && !IsSeparator(c[|c| - 1])
    ensures NormalizeModuleName(Some(name)) == Dotted(c)
  {
    assert |p + c + q| <= |Strip(name)| <= |name|;
    var rp, t, rq := ReplaceChar(p, '\\', '/'), ReplaceChar(c, '\\', '/'), ReplaceChar(q, '\\', '/');
    ReplaceCharConcat(p + c, q, '\\', '/');
    ReplaceCharConcat(p, c, '\\', '/');
    assert AllOf(rp, IsSlash) && AllOf(rq, IsSlash);
    assert !IsSlash(t[0]) && !IsSlash(t[|t| - 1]);
    TrimFramed(rp, t, rq, IsSlash);
    ReplacementsDot(c);
  }

  /** Whitespace around the name does not matter. */
  lemma PaddingIgnored(pre: string, s: string, post: string)
    requires AllOf(pre, IsSpace) && AllOf(post, IsSpace)
    requires s != [] && !IsSpace(s[0]) && !IsSpace(s[|s| - 1])
    ensures NormalizeModuleName(Some(pre + s + post)) == NormalizeModuleName(Some(s))
  {
    TrimFramed(pre, s, post, IsSpace);
    assert Strip(s) == s;
  }

  /** Only one `.py` is removed. */
  lemma PySuffixRemovedOnce(name: string)
    requires name == "a.py.py"
    ensures NormalizeModuleName(Some(name)) == "a.py"
  {
    DoubleSuffixFacts(name);
    UnpaddedNameBecomesDotted(name);
    DottedPlain("a.py");
  }

  lemma DoubleSuffixFacts(name: string)
    requires name == "a.py.py"
    ensures name != [] && !IsSpace(name[0]) && !IsSpace(name[|name| - 1])
    ensures DropPySuffix(name) == "a.py"
    ensures forall k :: 0 <= k < |"a.py"| ==> !IsSeparator("a.py"[k])
  {
    assert name[|name| - 3..] == ".py";
  }

  /** Leading and trailing separators are dropped before the rest become
      dots. */
  lemma SlashFramedPath(c: string)
    requires c != [] && !IsSeparator(c[0]) && !IsSeparator(c[|c| - 1])
    ensures NormalizeModuleName(Some("/" + c + "/")) == Dotted(c)
  {
    var s := "/" + c + "/";
    assert s[0] == '/' && s[|s| - 1] == '/';
    assert Strip(s) == s;
    assert !EndsWith(s, ".py") by {
      assert s[|s| - 3..][2] == s[|s| - 1];
    }
    var t := ReplaceChar(c, '\\', '/');
    ReplaceFramed(c);
    assert !IsSlash(t[0]) && !IsSlash(t[|t| - 1]);
    assert AllOf("/", IsSlash);
    TrimFramed("/", t, "/", IsSlash);
    ReplacementsDot(c);
  }

  lemma ReplaceFramed(c: string)
    ensures ReplaceChar("/" + c + "/", '\\', '/') == "/" + ReplaceChar(c, '\\', '/') + "/"
  {
    var s, t := "/" + c + "/", ReplaceChar(c, '\\', '/');
    assert forall k :: 1 <= k <= |c| ==> s[k] == c[k - 1];
    assert forall k :: 1 <= k <= |c| ==> ("/" + t + "/")[k] == t[k - 1];
  }

  /** Dotting works piece by piece. */
  lemma DottedConcat(a: string, b: string)
    ensures Dotted(a + b) == Dotted(a) + Dotted(b)
  {
    assert forall k :: 0 <= k < |a| ==> (a + b)[k] == a[k];
    assert forall k :: |a| <= k < |a| + |b| ==> (a + b)[k] == b[k - |a|];
  }

  lemma DottedPlain(a: string)
    requires forall k :: 0 <= k < |a| ==> !IsSeparator(a[k])
    ensures Dotted(a) == a
  {
  }

  lemma OuterSeparatorsDropped(path: string)
    requires path == "/app/agents/x/"
    ensures NormalizeModuleName(Some(path)) == "app.agents.x"
  {
    var c := path[1..|path| - 1];
    assert path == "/" + c + "/";
    SlashFramedPath(c);
    SampleSegments(path);
    SampleDotted("app", "agents", "x");
  }

  lemma SampleDotted(app: string, agents: string, x: string)
    requires app == "app" && agents == "agents" && x == "x"
    ensures Dotted(app + "/" + agents + "/" + x) == app + "." + agents + "." + x
  {
    DottedConcat(app + "/" + agents + "/", x);
    DottedConcat(app + "/" + agents, "/");
    DottedConcat(app + "/", agents);
    DottedConcat(app, "/");
    DottedPlain(app);
    DottedPlain(agents);
    DottedPlain(x);
    assert Dotted("/") == ".";
  }

  lemma SampleSegments(path: string)
    requires path == "/app/agents/x/"
    ensures path[1..|path| - 1] == "app" + "/" + "agents" + "/" + "x"
    ensures "app" + "." + "agents" + "." + "x" == "app.agents.x"
  {
  }

  /** A name made only of separators leaves nothing and falls back to the
      default. */
  lemma OnlySeparatorsIsDefault(s: string)
    requires s != [] && AllOf(s, IsSeparator)
    ensures NormalizeModuleName(Some(s)) == Default
  {
    assert !IsSpace(s[0]) && !IsSpace(s[|s| - 1]);
    assert Strip(s) == s;
    assert !EndsWith(s, ".py") by {
      assert |s| >= 3 ==> s[|s| - 3..][2] == s[|s| - 1];
    }
    assert AllOf(ReplaceChar(s, '\\', '/'), IsSlash);
  }

  /** The remaining case: when the stripped, `.py`-less name is nothing but
      separators (`"/.py"`, `" // "`, `".py"`), the default is used. */
  lemma AllSeparatorsIsDefault(name: string)
    requires AllOf(DropPySuffix(Strip(name)), IsSeparator)
    ensures NormalizeModuleName(Some(name)) == Default
  {
    if name != [] {
      var n1 := DropPySuffix(Strip(name));
      assert AllOf(ReplaceChar(n1, '\\', '/'), IsSlash);
    }
  }

  /** A name that is only the `.py` suffix falls back to the default. */
  lemma BareSuffixIsDefault(name: string)
    requires name == ".py"
    ensures NormalizeModuleName(Some(name)) == Default
  {
    assert !IsSpace(name[0]) && !IsSpace(name[2]);
    assert Strip(name) == name;
    assert DropPySuffix(name) == [];
  }
}

=== FILE: numerals.dfy ===
/** Decimal numerals: the part of Python's `int(str)` and `float(str)` the
    tool host relies on, with a failed parse as `None` instead of a
    ValueError. */
module Numerals {
  import opened Wrappers
  import opened Text

  predicate IsDigit(c: char) {
    '0' <= c <= '9'
  }

  function DigitValue(c: char): nat
    requires IsDigit(c)
  {
    c as int - '0' as int
  }

  function DigitChar(d: nat): char
    requires d < 10
  {
    ('0' as int + d) as char
  }

  /** The number a string of decimal digits denotes, most significant
      digit first; leading zeros are allowed. */
  function DigitsValue(s: string): nat
    requires AllOf(s, IsDigit)
  {
    if s == [] then 0 else 10 * DigitsValue(s[..|s| - 1]) + DigitValue(s[|s| - 1])
  }

  /** Python's `int(s)` for a string, accepting exactly the non-empty runs
      of ASCII digits. */
  function ParseNat(s: string): (r: Option<nat>)
    ensures r.Some? <==> s != [] && AllOf(s, IsDigit)
  {
    if s != [] && AllOf(s, IsDigit) then Some(DigitsValue(s)) else None
  }

  /** Python's `str(n)` for a natural number: the shortest digit string. */
  function ShowNat(n: nat): (s: string)
    ensures s != [] && AllOf(s, IsDigit)
    ensures |s| == 1 || s[0] != '0'
  {
    if n < 10 then [DigitChar(n)] else ShowNat(n / 10) + [DigitChar(n % 10)]
  }

  /** Reading back what `ShowNat` wrote gives the number. */
  lemma {:induction false} ParseShowNat(n: nat)
    ensures ParseNat(ShowNat(n)) == Some(n)
  {
    var s := ShowNat(n);
    if n < 10 {
      assert DigitsValue(s) == 10 * DigitsValue([]) + DigitValue(DigitChar(n));
    } else {
      ParseShowNat(n / 10);
      assert s[..|s| - 1] == ShowNat(n / 10);
      assert DigitValue(s[|s| - 1]) == n % 10;
      assert DigitsValue(s) == 10 * (n / 10) + n % 10;
    }
  }

  /** Two-digit zero-padded rendering, as in `"%02d" % n`. */
  function Pad2(n: nat): (s: string)
    requires n < 100
    ensures |s| == 2 && AllOf(s, IsDigit)
  {
    [DigitChar(n / 10), DigitChar(n % 10)]
  }

  lemma Pad2Value(n: nat)
    requires n < 100
    ensures ParseNat(Pad2(n)) == Some(n)
  {
    var s := Pad2(n);
    assert s[..1] == [DigitChar(n / 10)];
    assert DigitsValue(s[..1]) == n / 10 by {
      assert DigitsValue(s[..1]) == 10 * DigitsValue([]) + DigitValue(DigitChar(n / 10));
    }
    assert DigitsValue(s) == 10 * (n / 10) + n % 10;
  }

  /** Position of the first occurrence of `c` in `s`. */
  function IndexOf(s: string, c: char): (r: Option<nat>)
    ensures r.Some? ==> r.value < |s| && s[r.value] == c
    ensures r.Some? ==> forall k :: 0 <= k < r.value ==> s[k] != c
    ensures r.None? ==> forall k :: 0 <= k < |s| ==> s[k] != c
  {
    if s == [] then None
    else if s[0] == c then Some(0)
    else match IndexOf(s[1..], c)
      case Some(i) => Some(i + 1)
      case None => None
  }

  function Pow10(n: nat): (p: nat)
    ensures p >= 1
  {
    if n == 0 then 1 else 10 * Pow10(n - 1)
  }

  predicate IsNumeralChar(c: char) {
    IsDigit(c) || c == '.' || c == '+' || c == '-'
  }

  /** The value of `whole.frac` where `frac` was written with `digits`
      digits. */
  function DecimalValue(whole: nat, frac: nat, digits: nat): real {
    whole as real + frac as real / Pow10(digits) as real
  }

  /** `digits` or `digits.digits`, without a sign. */
  function ParseUnsignedDecimal(s: string): (r: Option<real>)
    ensures r.Some? ==> s != [] && AllOf(s, IsNumeralChar)
    ensures r.Some? ==> r.value >= 0.0
  {
    match IndexOf(s, '.')
    case None =>
      (match ParseNat(s)
       case Some(n) => Some(n as real)
       case None => None)
    case Some(dot) =>
      var whole := ParseNat(s[..dot]);
      var frac := ParseNat(s[dot + 1..]);
      if whole.Some? && frac.Some? then
        assert forall k :: 0 <= k < |s| ==> IsNumeralChar(s[k]) by {
          forall k | 0 <= k < |s| ensures IsNumeralChar(s[k]) {
            if k < dot {
              assert s[k] == s[..dot][k];
            } else if k > dot {
              assert s[k] == s[dot + 1..][k - dot - 1];
            }
          }
        }
        Some(DecimalValue(whole.value, frac.value, |s| - dot - 1))
      else None
  }

  /** Python's `float(s)` for a string, accepting surrounding whitespace,
      an optional sign and `digits[.digits]`. */
  function ParseFloat(s: string): (r: Option<real>)
    ensures Strip(s) == [] ==> r.None?
    ensures r.Some? ==> AllOf(Strip(s), IsNumeralChar)
  {
    var t := Strip(s);
    if t != [] && (t[0] == '-' || t[0] == '+') then
      match ParseUnsignedDecimal(t[1..])
      case Some(v) =>
        assert forall k :: 1 <= k < |t| ==> t[k] == t[1..][k - 1];
        Some(if t[0] == '-' then -v else v)
      case None => None
    else
      ParseUnsignedDecimal(t)
  }

  /** Every natural number written in decimal, with or without padding
      whitespace, reads back as itself. */
  lemma ParseFloatOfNat(n: nat, pad: string)
    requires AllOf(pad, IsSpace)
    ensures ParseFloat(pad + ShowNat(n) + pad) == Some(n as real)
  {
    var s := ShowNat(n);
    TrimFramed(pad, s, pad, IsSpace);
    ParseShowNat(n);
    assert IndexOf(s, '.') == None;
  }

  /** Whitespace around a numeral does not change what `float()` reads. */
  lemma ParseFloatIgnoresPadding(pre: string, t: string, post: string)
    requires AllOf(pre, IsSpace) && AllOf(post, IsSpace)
    requires t != [] && !IsSpace(t[0]) && !IsSpace(t[|t| - 1])
    ensures ParseFloat(pre + t + post) == ParseFloat(t)
  {
    TrimFramed(pre, t, post, IsSpace);
  }

  /** A numeral with a fractional part, `w.f`, reads as `w` plus the
      digits of `f` over the matching power of ten. */
  lemma ParseFloatOfDecimal(w: nat, f: string)
    requires f != [] && AllOf(f, IsDigit)
    ensures ParseFloat(ShowNat(w) + "." + f) == Some(DecimalValue(w, DigitsValue(f), |f|))
  {
    var n := ShowNat(w);
    var s := n + "." + f;
    assert s[0] == n[0] && s[|s| - 1] == f[|f| - 1];
    DigitIsNoSpace(n[0]);
    DigitIsNoSpace(f[|f| - 1]);
    ParseFloatUnsigned(s);
    UnsignedDecimalOfParts(n, f);
    ParseShowNat(w);
  }

  lemma DigitIsNoSpace(c: char)
    requires IsDigit(c)
    ensures !IsSpace(c) && c != '+' && c != '-'
  {
  }

  /** Without padding or sign, `float()` reads the numeral as unsigned. */
  lemma ParseFloatUnsigned(t: string)
    requires t != [] && !IsSpace(t[0]) && !IsSpace(t[|t| - 1])
    requires t[0] != '+' && t[0] != '-'
    ensures ParseFloat(t) == ParseUnsignedDecimal(t)
  {
    assert Strip(t) == t;
  }

  lemma UnsignedDecimalOfParts(n: string, f: string)
    requires AllOf(n, IsDigit)
    ensures ParseUnsignedDecimal(n + "." + f) ==
      if ParseNat(n).Some? && ParseNat(f).Some?
      then Some(DecimalValue(ParseNat(n).value, ParseNat(f).value, |f|))
      else None
  {
    var s := n + "." + f;
    assert s[|n|] == '.';
    assert forall k :: 0 <= k < |n| ==> s[k] == n[k];
    assert IndexOf(s, '.') == Some(|n|);
    assert s[..|n|] == n && s[|n| + 1..] == f;
    assert |s| - |n| - 1 == |f|;
  }

  /** A leading `+` changes nothing and a leading `-` negates, for a
      numeral that carries no sign or padding of its own. */
  lemma ParseFloatOfSigned(t: string)
    requires t != [] && !IsSpace(t[0]) && !IsSpace(t[|t| - 1])
    requires t[0] != '+' && t[0] != '-'
    ensures ParseFloat("+" + t) == ParseFloat(t)
    ensures ParseFloat("-" + t).Some? <==> ParseFloat(t).Some?
    ensures ParseFloat(t).Some? ==> ParseFloat("-" + t).value == -ParseFloat(t).value
  {
    ParseFloatUnsigned(t);
    SignedRead('+', t);
    SignedRead('-', t);
  }

  lemma SignedRead(sign: char, t: string)
    requires sign == '+' || sign == '-'
    requires t != [] && !IsSpace(t[|t| - 1])
    ensures ParseFloat([sign] + t) ==
      match ParseUnsignedDecimal(t)
      case Some(v) => Some(if sign == '-' then -v else v)
      case None => None
  {
    var u := [sign] + t;
    assert u[|u| - 1] == t[|t| - 1] && u[0] == sign;
    assert Strip(u) == u;
    assert u[1..] == t;
  }

  /** `"4.5"` reads as 4.5. */
  lemma FourAndAHalf()
    ensures ParseFloat("4.5") == Some(4.5)
  {
    var s := ShowNat(4) + "." + "5";
    ParseFloatOfDecimal(4, "5");
    assert s == "4.5";
    assert DigitsValue("5") == 5 by { assert "5"[..0] == []; }
    assert Pow10(1) == 10;
    assert DecimalValue(4, 5, 1) == 4.5;
  }
}

=== FILE: responses.dfy ===
/** The tagged result every search tool returns instead of raising:
    `{"status": "success", "count": ..., "results": [...]}` or
    `{"status": "error", "message": ...}`. */
module Responses {

  datatype SearchResponse<T> =
    | Found(count: nat, results: seq<T>)
    | Failed(message: string)

  /** The `limit` a search uses when the request names none. */
  const DefaultLimit: int := 5

  /** The price, `1e9`, a flight or hotel record without one is filtered
      and ranked by. */
  const PriceDefault: real := 1000000000.0
}

=== FILE: seqs.dfy ===
/** Order-preserving filtering, as Python's `[x for x in xs if p(x)]`, and
    the prefix slice `xs[:n]`. */
module Seqs {

  /** The subsequence of `s` whose elements satisfy `p`, in their order. */
  function Filter<T(==)>(s: seq<T>, p: T -> bool): (r: seq<T>)
    ensures |r| <= |s|
    ensures forall i :: 0 <= i < |r| ==> p(r[i]) && r[i] in s
  {
    if s == [] then []
    else
      assert s == [s[0]] + s[1..];
      (if p(s[0]) then [s[0]] else []) + Filter(s[1..], p)
  }

  /** Nothing that satisfies `p` is lost. */
  lemma {:induction false} FilterComplete<T>(s: seq<T>, p: T -> bool, x: T)
    requires x in s && p(x)
    ensures x in Filter(s, p)
  {
    if s[0] != x {
      FilterComplete(s[1..], p, x);
    }
  }

  /** Filtering three elements of which the middle one fails. */
  lemma FilterDropsMiddle<T>(a: T, b: T, c: T, p: T -> bool)
    requires p(a) && !p(b) && p(c)
    ensures Filter([a, b, c], p) == [a, c]
  {
    assert [c] == [c] + [];
    FilterCons(c, [], p);
    FilterCons(b, [c], p);
    assert [a, b, c] == [a] + [b, c];
    FilterCons(a, [b, c], p);
  }

  /** One step of the filtering: the head is kept or dropped, then the rest
      is filtered. */
  lemma FilterCons<T>(x: T, s: seq<T>, p: T -> bool)
    ensures Filter([x] + s, p) == (if p(x) then [x] else []) + Filter(s, p)
  {
    assert ([x] + s)[1..] == s;
  }

  /** Two predicates that agree on the elements of `s` filter it alike. */
  lemma {:induction false} FilterAgree<T>(s: seq<T>, p: T -> bool, q: T -> bool)
    requires forall x :: x in s ==> p(x) == q(x)
    ensures Filter(s, p) == Filter(s, q)
  {
    if s != [] {
      FilterAgree(s[1..], p, q);
    }
  }

  /** Filtering twice is filtering once by the conjunction `both`. */
  lemma {:induction false} FilterTwice<T>(s: seq<T>, p: T -> bool, q: T -> bool, both: T -> bool)
    requires forall x :: x in s ==> both(x) == (p(x) && q(x))
    ensures Filter(Filter(s, p), q) == Filter(s, both)
  {
    if s != [] {
      var t := s[1..];
      assert forall x :: x in t ==> x in s;
      FilterTwice(t, p, q, both);
      var head := if p(s[0]) then [s[0]] else [];
      assert Filter(s, p) == head + Filter(t, p);
      if p(s[0]) {
        assert Filter(s, p)[0] == s[0] && Filter(s, p)[1..] == Filter(t, p);
      } else {
        assert Filter(s, p) == Filter(t, p);
      }
    }
  }

  /** A rearrangement of a filtered list holds only elements of the list
      that satisfy the filter. */
  lemma PermutedFilterSound<T>(r: seq<T>, s: seq<T>, p: T -> bool)
    requires multiset(r) == multiset(Filter(s, p))
    ensures forall i :: 0 <= i < |r| ==> p(r[i]) && r[i] in s
  {
    var f := Filter(s, p);
    forall i | 0 <= i < |r| ensures p(r[i]) && r[i] in s {
      assert r[i] in multiset(r);
      assert r[i] in multiset(f);
      var j :| 0 <= j < |f| && f[j] == r[i];
    }
  }

  /** Python's `s[:n]` for an integer `n`: a non-negative `n` keeps at most
      `n` elements; a negative `n` drops the last `-n`. */
  function SlicePrefix<T>(s: seq<T>, n: int): (r: seq<T>)
    ensures r <= s
    ensures n >= 0 ==> |r| == if n <= |s| then n else |s|
    ensures n < 0 ==> |r| == if |s| + n >= 0 then |s| + n else 0
  {
    if n >= 0 then (if n <= |s| then s[..n] else s)
    else (if |s| + n >= 0 then s[..|s| + n] else [])
  }
}

=== FILE: stablesort.dfy ===
/** Python's `list.sort(key=...)` is stable: elements whose keys compare
    equal keep their original order. This module states what a stable sort
    by a total preorder returns, gives an insertion sort that returns it,
    and shows the answer is unique, so any stable sort (Python's included)
    returns the same list. */
module StableSort {

  /** `le` is total and transitive; reflexivity follows from totality. */
  ghost predicate TotalPreorder<T(!new)>(le: (T, T) -> bool) {
    && (forall x, y :: le(x, y) || le(y, x))
    && (forall x, y, z :: le(x, y) && le(y, z) ==> le(x, z))
  }

  /** `x` and `y` rank equal: neither sorts strictly before the other. */
  predicate Tied<T>(le: (T, T) -> bool, x: T, y: T) {
    le(x, y) && le(y, x)
  }

  predicate Sorted<T>(s: seq<T>, le: (T, T) -> bool) {
    forall i, j :: 0 <= i < j < |s| ==> le(s[i], s[j])
  }

  /** The elements of `s` that rank equal to `x`, in their order in `s`. */
  function Ties<T>(s: seq<T>, x: T, le: (T, T) -> bool): seq<T> {
    if s == [] then [] else (if Tied(le, s[0], x) then [s[0]] else []) + Ties(s[1..], x, le)
  }

  /** `r` is the result of stably sorting `s` by `le`: it is sorted, and
      every class of tied elements appears in `r` in the order it has in
      `s`. */
  ghost predicate StablySorts<T(!new)>(r: seq<T>, s: seq<T>, le: (T, T) -> bool) {
    Sorted(r, le) && forall x :: Ties(r, x, le) == Ties(s, x, le)
  }

  /** Places `x` before the first element it ranks at or below, so after
      every element that ranks strictly below it. */
  function Insert<T>(x: T, s: seq<T>, le: (T, T) -> bool): (r: seq<T>)
    ensures |r| == |s| + 1
    ensures multiset(r) == multiset(s) + multiset{x}
  {
    if s == [] then [x]
    else if le(x, s[0]) then [x] + s
    else
      assert s == [s[0]] + s[1..];
      [s[0]] + Insert(x, s[1..], le)
  }

  /** Insertion sort: each element, taken from the back of the list, is
      inserted in front of the elements it ties with. */
  function InsertionSort<T>(s: seq<T>, le: (T, T) -> bool): (r: seq<T>)
    ensures |r| == |s|
    ensures multiset(r) == multiset(s)
  {
    if s == [] then []
    else
      assert s == [s[0]] + s[1..];
      Insert(s[0], InsertionSort(s[1..], le), le)
  }

  lemma {:induction false} InsertSorted<T(!new)>(x: T, s: seq<T>, le: (T, T) -> bool)
    requires TotalPreorder(le)
    requires Sorted(s, le)
    ensures Sorted(Insert(x, s, le), le)
  {
    if s != [] && !le(x, s[0]) {
      var t := s[1..];
      InsertSorted(x, t, le);
      var u := Insert(x, t, le);
      forall k | 0 <= k < |u| ensures le(s[0], u[k]) {
        assert u[k] in multiset(u);
        if u[k] != x {
          assert u[k] in multiset(t);
          var i :| 0 <= i < |t| && t[i] == u[k];
          assert t[i] == s[i + 1];
        }
      }
    }
  }

  lemma {:induction false} InsertionSortSorted<T(!new)>(s: seq<T>, le: (T, T) -> bool)
    requires TotalPreorder(le)
    ensures Sorted(InsertionSort(s, le), le)
  {
    if s != [] {
      InsertionSortSorted(s[1..], le);
      InsertSorted(s[0], InsertionSort(s[1..], le), le);
    }
  }

  /** Inserting `x` adds it to the front of its own class and leaves every
      other class alone: no element tied with `x` is passed over. */
  lemma {:induction false} InsertTies<T(!new)>(x: T, s: seq<T>, y: T, le: (T, T) -> bool)
    requires TotalPreorder(le)
    ensures Ties(Insert(x, s, le), y, le) == (if Tied(le, x, y) then [x] else []) + Ties(s, y, le)
  {
    if s == [] {
    } else if le(x, s[0]) {
      assert ([x] + s)[1..] == s;
    } else {
      var r := Insert(x, s, le);
      var hx := if Tied(le, x, y) then [x] else [];
      var h0 := if Tied(le, s[0], y) then [s[0]] else [];
      InsertTies(x, s[1..], y, le);
      assert r[0] == s[0] && r[1..] == Insert(x, s[1..], le);
      assert Ties(r, y, le) == h0 + (hx + Ties(s[1..], y, le));
      assert Ties(s, y, le) == h0 + Ties(s[1..], y, le);
      if Tied(le, x, y) {
        assert !le(y, s[0]);
        assert h0 == [];
      } else {
        assert hx == [];
      }
    }
  }

  /** Insertion sort keeps every class of tied elements in input order. */
  lemma {:induction false} InsertionSortTies<T(!new)>(s: seq<T>, y: T, le: (T, T) -> bool)
    requires TotalPreorder(le)
    ensures Ties(InsertionSort(s, le), y, le) == Ties(s, y, le)
  {
    if s != [] {
      InsertionSortTies(s[1..], y, le);
      InsertTies(s[0], InsertionSort(s[1..], le), y, le);
    }
  }

  /** Insertion sort is a stable sort. */
  lemma InsertionSortIsStable<T(!new)>(s: seq<T>, le: (T, T) -> bool)
    requires TotalPreorder(le)
    ensures StablySorts(InsertionSort(s, le), s, le)
  {
    InsertionSortSorted(s, le);
    forall y ensures Ties(InsertionSort(s, le), y, le) == Ties(s, y, le) {
      InsertionSortTies(s, y, le);
    }
  }

  /** The first element of a non-empty list heads its own class. */
  lemma TiesHead<T(!new)>(s: seq<T>, le: (T, T) -> bool)
    requires TotalPreorder(le)
    requires s != []
    ensures Ties(s, s[0], le) != [] && Ties(s, s[0], le)[0] == s[0]
  {
    assert le(s[0], s[0]);
  }

  /** Every member of a class comes from the list and ties with its
      representative. */
  lemma {:induction false} TiesMember<T>(s: seq<T>, x: T, le: (T, T) -> bool, k: nat)
    requires k < |Ties(s, x, le)|
    ensures exists i :: 0 <= i < |s| && s[i] == Ties(s, x, le)[k]
    ensures Tied(le, Ties(s, x, le)[k], x)
  {
    if !Tied(le, s[0], x) {
      TiesMember(s[1..], x, le, k);
      var i :| 0 <= i < |s[1..]| && s[1..][i] == Ties(s[1..], x, le)[k];
      assert s[i + 1] == Ties(s, x, le)[k];
    } else if k > 0 {
      TiesMember(s[1..], x, le, k - 1);
      var i :| 0 <= i < |s[1..]| && s[1..][i] == Ties(s[1..], x, le)[k - 1];
      assert s[i + 1] == Ties(s, x, le)[k];
    } else {
      assert s[0] == Ties(s, x, le)[k];
    }
  }

  /** The head of a sorted list ranks at or below every class present in
      the list. */
  lemma HeadBelowTies<T(!new)>(s: seq<T>, x: T, le: (T, T) -> bool)
    requires TotalPreorder(le)
    requires Sorted(s, le)
    requires Ties(s, x, le) != []
    ensures le(s[0], x)
  {
    TiesMember(s, x, le, 0);
    var i :| 0 <= i < |s| && s[i] == Ties(s, x, le)[0];
    assert le(s[0], s[i]);
  }

  /** Two sorted lists with the same classes in the same orders are equal. */
  lemma {:induction false} SameTiesSame<T(!new)>(a: seq<T>, b: seq<T>, le: (T, T) -> bool)
    requires TotalPreorder(le)
    requires Sorted(a, le) && Sorted(b, le)
    requires forall x :: Ties(a, x, le) == Ties(b, x, le)
    ensures a == b
    decreases |a|
  {
    if a == [] && b != [] {
      TiesHead(b, le);
      assert false;
    } else if a != [] && b == [] {
      TiesHead(a, le);
      assert false;
    } else if a != [] {
      var x, y := a[0], b[0];
      TiesHead(a, le);
      TiesHead(b, le);
      assert Ties(a, y, le) == Ties(b, y, le);
      HeadBelowTies(a, y, le);
      assert Ties(b, x, le) == Ties(a, x, le);
      HeadBelowTies(b, x, le);
      assert Ties(b, x, le)[0] == y;
      assert x == y;
      forall z ensures Ties(a[1..], z, le) == Ties(b[1..], z, le) {
        var h := if Tied(le, x, z) then [x] else [];
        assert Ties(a, z, le) == h + Ties(a[1..], z, le);
        assert Ties(b, z, le) == h + Ties(b[1..], z, le);
        assert Ties(a, z, le)[|h|..] == Ties(a[1..], z, le);
        assert Ties(b, z, le)[|h|..] == Ties(b[1..], z, le);
      }
      SameTiesSame(a[1..], b[1..], le);
      assert a == [x] + a[1..] && b == [y] + b[1..];
    }
  }

  /** A stable sort has exactly one possible result. */
  lemma StableSortUnique<T(!new)>(r1: seq<T>, r2: seq<T>, s: seq<T>, le: (T, T) -> bool)
    requires TotalPreorder(le)
    requires StablySorts(r1, s, le) && StablySorts(r2, s, le)
    ensures r1 == r2
  {
    SameTiesSame(r1, r2, le);
  }

  /** Any stable sort of `s` returns what insertion sort returns. */
  lemma StableSortIsInsertionSort<T(!new)>(r: seq<T>, s: seq<T>, le: (T, T) -> bool)
    requires TotalPreorder(le)
    requires StablySorts(r, s, le)
    ensures r == InsertionSort(s, le)
  {
    InsertionSortIsStable(s, le);
    StableSortUnique(r, InsertionSort(s, le), s, le);
  }

  /** A sorted arrangement of two elements, the second ranking strictly
      below the first, puts the second first. */
  lemma SortedPair<T>(r: seq<T>, a: T, b: T, le: (T, T) -> bool)
    requires multiset(r) == multiset([a, b])
    requires Sorted(r, le)
    requires !le(a, b)
    ensures r == [b, a]
  {
    assert |r| == |multiset(r)| == 2;
    assert r[0] in multiset(r) && r[1] in multiset(r);
    assert le(r[0], r[1]);
    if r[0] == a {
      assert false;
    }
    assert r[0] == b;
    assert multiset(r) == multiset{b, r[1]};
  }
}

=== FILE: text.dfy ===
/** The handful of Python `str` operations the tool host and the package
    initialiser use: `strip`, `lower`, `endswith`, `replace` of one character
    and the `<=` ordering of strings. */
module Text {

  /** Python's `str.isspace()` for one character: the ASCII controls TAB to
      CR, the separators U+001C..U+001F, SPACE, NEL, NO-BREAK SPACE and the
      Unicode space separators. These are the characters `strip()` removes. */
  predicate IsSpace(c: char) {
    || ('\t' <= c <= '\r')
    || ('\U{1C}' <= c <= '\U{1F}')
    || c == ' '
    || c == '\U{85}'
    || c == '\U{A0}'
    || c == '\U{1680}'
    || ('\U{2000}' <= c <= '\U{200A}')
    || c == '\U{2028}'
    || c == '\U{2029}'
    || c == '\U{202F}'
    || c == '\U{205F}'
    || c == '\U{3000}'
  }

  /** Every character of `s` satisfies `p`. */
  predicate AllOf(s: string, p: char -> bool) {
    forall k :: 0 <= k < |s| ==> p(s[k])
  }

  /** Length of the longest prefix of `s` made of characters `drop` accepts. */
  function LeadingCount(s: string, drop: char -> bool): (n: nat)
    ensures n <= |s|
    ensures forall k :: 0 <= k < n ==> drop(s[k])
    ensures n < |s| ==> !drop(s[n])
  {
    if s == [] || !drop(s[0]) then 0 else 1 + LeadingCount(s[1..], drop)
  }

  /** Length of the longest suffix of `s` made of characters `drop` accepts. */
  function TrailingCount(s: string, drop: char -> bool): (n: nat)
    ensures n <= |s|
    ensures forall k :: |s| - n <= k < |s| ==> drop(s[k])
    ensures n < |s| ==> !drop(s[|s| - 1 - n])
  {
    if s == [] || !drop(s[|s| - 1]) then 0 else 1 + TrailingCount(s[..|s| - 1], drop)
  }

  /** The two counts are determined by their defining properties. */
  lemma LeadingCountIs(s: string, drop: char -> bool, n: nat)
    requires n <= |s|
    requires forall k :: 0 <= k < n ==> drop(s[k])
    requires n < |s| ==> !drop(s[n])
    ensures LeadingCount(s, drop) == n
  {
  }

  lemma TrailingCountIs(s: string, drop: char -> bool, n: nat)
    requires n <= |s|
    requires forall k :: |s| - n <= k < |s| ==> drop(s[k])
    requires n < |s| ==> !drop(s[|s| - 1 - n])
    ensures TrailingCount(s, drop) == n
  {
  }

  /** Python's `s.strip(chars)` generalised to a character class: removes
      the longest run of dropped characters from each end. */
  function Trim(s: string, drop: char -> bool): (r: string)
    ensures |r| <= |s|
    ensures r == [] || (!drop(r[0]) && !drop(r[|r| - 1]))
    ensures r == [] <==> AllOf(s, drop)
    ensures s == [] || (!drop(s[0]) && !drop(s[|s| - 1])) ==> r == s
  {
    var i := LeadingCount(s, drop);
    var t := s[i..];
    var j := TrailingCount(t, drop);
    assert t != [] ==> j < |t| by {
      if t != [] {
        assert t[0] == s[i] && !drop(t[0]);
      }
    }
    t[..|t| - j]
  }

  /** Trimming is blind to any run of dropped characters around a core
      whose ends are kept. */
  lemma {:induction false} TrimFramed(p: string, c: string, q: string, drop: char -> bool)
    requires AllOf(p, drop) && AllOf(q, drop)
    requires c != [] && !drop(c[0]) && !drop(c[|c| - 1])
    ensures Trim(p + c + q, drop) == c
  {
    var s := p + c + q;
    assert s[|p|] == c[0];
    LeadingCountIs(s, drop, |p|);
    var t := s[|p|..];
    assert t == c + q;
    assert t[|t| - 1 - |q|] == c[|c| - 1];
    TrailingCountIs(t, drop, |q|);
    assert t[..|t| - |q|] == c;
  }

  /** Python's `str.strip()` with no argument. */
  function Strip(s: string): string {
    Trim(s, IsSpace)
  }

  /** Python's `str.lower()` restricted to the ASCII letters. */
  function LowerChar(c: char): char {
    if 'A' <= c <= 'Z' then (c as int + 32) as char else c
  }

  function Lower(s: string): string {
    seq(|s|, k requires 0 <= k < |s| => LowerChar(s[k]))
  }

  /** Lower-casing twice is lower-casing once. */
  lemma LowerIdempotent(s: string)
    ensures Lower(Lower(s)) == Lower(s)
  {
    assert forall k :: 0 <= k < |s| ==> LowerChar(LowerChar(s[k])) == LowerChar(s[k]);
  }

  lemma LowerSlice(s: string, i: nat, j: nat)
    requires i <= j <= |s|
    ensures Lower(s)[i..j] == Lower(s[i..j])
  {
  }

  /** `strip` and `lower` commute: case folding never creates or removes
      whitespace. */
  lemma StripLowerCommute(s: string)
    ensures Strip(Lower(s)) == Lower(Strip(s))
  {
    forall c ensures IsSpace(LowerChar(c)) == IsSpace(c) {
      LowerKeepsSpace(c);
    }
    TrimLowerCommute(s, IsSpace);
  }

  /** Trimming commutes with lower-casing for any character class that
      lower-casing preserves. */
  lemma TrimLowerCommute(s: string, drop: char -> bool)
    requires forall c :: drop(LowerChar(c)) == drop(c)
    ensures Trim(Lower(s), drop) == Lower(Trim(s, drop))
  {
    var i := LeadingCount(s, drop);
    var t := s[i..];
    var j := TrailingCount(t, drop);
    TrimSlices(s, drop, i, t, j);
    LeadingCountLower(s, drop);
    LowerSlice(s, i, |s|);
    assert s[i..|s|] == t && Lower(s)[i..|s|] == Lower(s)[i..];
    TrailingCountLower(t, drop);
    TrimSlices(Lower(s), drop, i, Lower(t), j);
    LowerSlice(t, 0, |t| - j);
  }

  /** Trimming cuts the leading run, then the trailing run of what is left. */
  lemma TrimSlices(s: string, drop: char -> bool, i: nat, t: string, j: nat)
    requires i == LeadingCount(s, drop) && t == s[i..] && j == TrailingCount(t, drop)
    ensures Trim(s, drop) == t[..|t| - j]
  {
  }

  /** Trimming adds no character. */
  lemma TrimAddsNothing(s: string, drop: char -> bool, c: char)
    requires c !in s
    ensures c !in Trim(s, drop)
  {
    var i := LeadingCount(s, drop);
    var t := s[i..];
    var j := TrailingCount(t, drop);
    TrimSlices(s, drop, i, t, j);
    var r := t[..|t| - j];
    forall k | 0 <= k < |r| ensures r[k] != c {
      assert r[k] == s[i + k];
    }
  }

  lemma LeadingCountLower(s: string, drop: char -> bool)
    requires forall c :: drop(LowerChar(c)) == drop(c)
    ensures LeadingCount(Lower(s), drop) == LeadingCount(s, drop)
  {
    var ls := Lower(s);
    var i := LeadingCount(s, drop);
    assert forall k :: 0 <= k < |s| ==> ls[k] == LowerChar(s[k]);
    LeadingCountIs(ls, drop, i);
  }

  lemma TrailingCountLower(s: string, drop: char -> bool)
    requires forall c :: drop(LowerChar(c)) == drop(c)
    ensures TrailingCount(Lower(s), drop) == TrailingCount(s, drop)
  {
    var ls := Lower(s);
    var j := TrailingCount(s, drop);
    assert forall k :: 0 <= k < |s| ==> ls[k] == LowerChar(s[k]);
    TrailingCountIs(ls, drop, j);
  }

  lemma LowerKeepsSpace(c: char)
    ensures IsSpace(LowerChar(c)) <==> IsSpace(c)
  {
  }

  /** Python's `s.endswith(suffix)`. */
  predicate EndsWith(s: string, suffix: string) {
    |suffix| <= |s| && s[|s| - |suffix|..] == suffix
  }

  /** Python's `s.replace(from, to)` for single characters. */
  function ReplaceChar(s: string, from: char, to: char): (r: string)
    ensures |r| == |s|
    ensures forall k :: 0 <= k < |s| ==> r[k] == (if s[k] == from then to else s[k])
  {
    seq(|s|, k requires 0 <= k < |s| => if s[k] == from then to else s[k])
  }

  /** Replacing works piece by piece. */
  lemma ReplaceCharConcat(a: string, b: string, from: char, to: char)
    ensures ReplaceChar(a + b, from, to) == ReplaceChar(a, from, to) + ReplaceChar(b, from, to)
  {
    var r, ra, rb := ReplaceChar(a + b, from, to), ReplaceChar(a, from, to), ReplaceChar(b, from, to);
    forall k | 0 <= k < |r| ensures r[k] == (ra + rb)[k] {
      if k < |a| {
        assert (a + b)[k] == a[k];
      } else {
        assert (a + b)[k] == b[k - |a|];
      }
    }
  }

  /** Python's `a <= b` on `str`: lexicographic by code point, a prefix
      ordered before its extensions. */
  predicate StrLe(a: string, b: string) {
    a == [] || (b != [] && (a[0] < b[0] || (a[0] == b[0] && StrLe(a[1..], b[1..]))))
  }

  lemma {:induction false} StrLeTotal(a: string, b: string)
    ensures StrLe(a, b) || StrLe(b, a)
  {
    if a != [] && b != [] && a[0] == b[0] {
      StrLeTotal(a[1..], b[1..]);
    }
  }

  lemma {:induction false} StrLeTransitive(a: string, b: string, c: string)
    requires StrLe(a, b) && StrLe(b, c)
    ensures StrLe(a, c)
  {
    if a != [] && a[0] == b[0] && b[0] == c[0] {
      StrLeTransitive(a[1..], b[1..], c[1..]);
    }
  }

  lemma {:induction false} StrLeAntisymmetric(a: string, b: string)
    requires StrLe(a, b) && StrLe(b, a)
    ensures a == b
  {
    if a != [] {
      StrLeAntisymmetric(a[1..], b[1..]);
      assert a == [a[0]] + a[1..] && b == [b[0]] + b[1..];
    }
  }
}

=== FILE: timewindow.dfy ===
/** The time-window classifier of the tool host (`_parse_time` and
    `_is_in_window` in mcpHost.py): a departure time `"HH:MM"` is checked
    against one of five fixed, inclusive time-of-day windows. */
module TimeWindow {
  import opened Wrappers
  import opened Text
  import opened Numerals

  /** A `datetime.time` whose seconds are zero. */
  datatype TimeOfDay = TimeOfDay(hour: nat, minute: nat)

  /** The values `datetime.time` accepts. */
  predicate Valid(t: TimeOfDay) {
    t.hour < 24 && t.minute < 60
  }

  function MinuteOfDay(t: TimeOfDay): nat {
    t.hour * 60 + t.minute
  }

  /** `a <= b` on `datetime.time`: by hour, then by minute. */
  predicate NotAfter(a: TimeOfDay, b: TimeOfDay) {
    a.hour < b.hour || (a.hour == b.hour && a.minute <= b.minute)
  }

  /** `h, m = s.split(":")`: succeeds exactly when `s` holds one colon. */
  function SplitColon(s: string): (r: Option<(string, string)>)
    ensures r.Some? ==> s == r.value.0 + ":" + r.value.1
    ensures r.Some? ==> ':' !in r.value.0 && ':' !in r.value.1
  {
    match IndexOf(s, ':')
    case None => None
    case Some(i) =>
      if ':' in s[i + 1..] then
        None
      else
        assert s == s[..i] + ":" + s[i + 1..];
        assert ':' !in s[..i] by {
          forall k | 0 <= k < i ensures s[..i][k] != ':' { assert s[..i][k] == s[k]; }
        }
        Some((s[..i], s[i + 1..]))
  }

  /** `_parse_time`: `time(int(hh), int(mm))` after splitting on the colon;
      every failure (no colon or several, a part that is not a number, an
      hour or minute out of range) is `None`. */
  function ParseTime(s: string): (r: Option<TimeOfDay>)
    ensures r.Some? ==> SplitColon(s).Some?
    ensures r.Some? ==> Valid(r.value)
    ensures r.Some? ==> |s| >= 3 && AllOf(s, (c: char) => IsDigit(c) || c == ':')
  {
    match SplitColon(s)
    case None => None
    case Some((hh, mm)) =>
      match (ParseNat(hh), ParseNat(mm))
      case (Some(h), Some(m)) =>
        if h < 24 && m < 60 then
          assert forall k :: 0 <= k < |s| ==> IsDigit(s[k]) || s[k] == ':' by {
            forall k | 0 <= k < |s| ensures IsDigit(s[k]) || s[k] == ':' {
              if k < |hh| {
                assert s[k] == hh[k];
              } else if k > |hh| {
                assert s[k] == mm[k - |hh| - 1];
              }
            }
          }
          Some(TimeOfDay(h, m))
        else None
      case _ => None
  }

  /** A time split at its one colon parses exactly when both halves are
      digit strings whose values are an hour and a minute. */
  lemma ParseTimeOfParts(hh: string, mm: string)
    requires ':' !in hh && ':' !in mm
    ensures ParseTime(hh + ":" + mm) ==
      if ParseNat(hh).Some? && ParseNat(mm).Some? && ParseNat(hh).value < 24 && ParseNat(mm).value < 60
      then Some(TimeOfDay(ParseNat(hh).value, ParseNat(mm).value))
      else None
  {
    var s := hh + ":" + mm;
    assert s[|hh|] == ':';
    assert forall k :: 0 <= k < |hh| ==> s[k] == hh[k];
    assert IndexOf(s, ':') == Some(|hh|);
    assert s[|hh| + 1..] == mm;
    assert s[..|hh|] == hh;
  }

  /** The canonical `"HH:MM"` rendering of a time. */
  function Format(t: TimeOfDay): string
    requires Valid(t)
  {
    Pad2(t.hour) + ":" + Pad2(t.minute)
  }

  /** Every valid time written as `"HH:MM"` parses back to itself. */
  lemma ParseFormat(t: TimeOfDay)
    requires Valid(t)
    ensures ParseTime(Format(t)) == Some(t)
  {
    Pad2Value(t.hour);
    Pad2Value(t.minute);
    ParseTimeOfParts(Pad2(t.hour), Pad2(t.minute));
  }

  /** An inclusive window `[start, end]`. */
  datatype Window = Window(start: TimeOfDay, end: TimeOfDay)

  /** The fixed table of `_is_in_window`; `None` for any other name. */
  function WindowBounds(name: string): (r: Option<Window>)
    ensures r.Some? <==> name in ["early_morning", "morning", "afternoon", "evening", "night"]
    ensures r.Some? ==> Valid(r.value.start) && Valid(r.value.end) && NotAfter(r.value.start, r.value.end)
  {
    if name == "early_morning" then Some(Window(TimeOfDay(4, 0), TimeOfDay(9, 0)))
    else if name == "morning" then Some(Window(TimeOfDay(6, 0), TimeOfDay(11, 0)))
    else if name == "afternoon" then Some(Window(TimeOfDay(12, 0), TimeOfDay(16, 59)))
    else if name == "evening" then Some(Window(TimeOfDay(17, 0), TimeOfDay(21, 0)))
    else if name == "night" then Some(Window(TimeOfDay(22, 0), TimeOfDay(23, 59)))
    else None
  }

  /** `_is_in_window`: a time that does not parse is in no window (fails
      closed); a window name outside the table admits every time that
      parses (fails open); otherwise the bounds are inclusive. */
  function IsInWindow(hhmm: string, name: string): (r: bool)
    ensures ParseTime(hhmm).None? ==> !r
    ensures ParseTime(hhmm).Some? && WindowBounds(name).None? ==> r
    ensures ParseTime(hhmm).Some? && WindowBounds(name).Some? ==>
      (r <==> MinuteOfDay(WindowBounds(name).value.start) <= MinuteOfDay(ParseTime(hhmm).value)
                <= MinuteOfDay(WindowBounds(name).value.end))
  {
    match ParseTime(hhmm)
    case None => false
    case Some(t) =>
      match WindowBounds(name)
      case None => true
      case Some(w) => NotAfter(w.start, t) && NotAfter(t, w.end)
  }

  /** The table in minutes of the day, for times written `"HH:MM"`. */
  lemma WindowTable(t: TimeOfDay)
    requires Valid(t)
    ensures IsInWindow(Format(t), "early_morning") <==> 240 <= MinuteOfDay(t) <= 540
    ensures IsInWindow(Format(t), "morning") <==> 360 <= MinuteOfDay(t) <= 660
    ensures IsInWindow(Format(t), "afternoon") <==> 720 <= MinuteOfDay(t) <= 1019
    ensures IsInWindow(Format(t), "evening") <==> 1020 <= MinuteOfDay(t) <= 1260
    ensures IsInWindow(Format(t), "night") <==> 1320 <= MinuteOfDay(t) <= 1439
  {
    ParseFormat(t);
  }

  /** 11:01-11:59, 21:01-21:59 and 00:00-03:59 lie in none of the five
      windows: with any window name in the table such a flight is dropped. */
  lemma GapsInNoWindow(t: TimeOfDay, name: string)
    requires Valid(t)
    requires MinuteOfDay(t) < 240 || 660 < MinuteOfDay(t) < 720 || 1260 < MinuteOfDay(t) < 1320
    ensures IsInWindow(Format(t), name) <==> WindowBounds(name).None?
  {
    ParseFormat(t);
    WindowTable(t);
  }

  /** 06:00-09:00 is in both `early_morning` and `morning`. */
  lemma MorningOverlap(t: TimeOfDay)
    requires Valid(t)
    requires 360 <= MinuteOfDay(t) <= 540
    ensures IsInWindow(Format(t), "early_morning") && IsInWindow(Format(t), "morning")
  {
    WindowTable(t);
  }

  /** Malformed times fail closed even under a name outside the table. */
  lemma EmptyTimeInNoWindow(name: string)
    ensures !IsInWindow("", name)
  {
    assert IndexOf("", ':') == None;
  }

  lemma HourOutOfRangeInNoWindow(name: string)
    ensures !IsInWindow("24:00", name)
  {
    ParseTimeOfParts("24", "00");
    assert "24" + ":" + "00" == "24:00";
    assert DigitsValue("24") == 24 by { assert "24"[..1] == "2"; }
  }

  lemma MinuteOutOfRangeInNoWindow(name: string)
    ensures !IsInWindow("10:60", name)
  {
    ParseTimeOfParts("10", "60");
    assert "10" + ":" + "60" == "10:60";
    assert DigitsValue("60") == 60 by { assert "60"[..1] == "6"; }
  }

  lemma SecondsInNoWindow(name: string)
    ensures !IsInWindow("10:00:00", name)
  {
    assert IndexOf("10:00:00", ':') == Some(2);
    assert "10:00:00"[3..] == "00:00";
    assert "00:00"[2] == ':';
  }

  /** `int()` accepts a single digit, so `"7:5"` is 07:05. */
  lemma UnpaddedTimeParses()
    ensures ParseTime("7:5") == Some(TimeOfDay(7, 5))
  {
    ParseTimeOfParts("7", "5");
    assert "7" + ":" + "5" == "7:5";
  }

  /** For times written `"HH:MM"` string order is time order, which is why
      the flight ranking may compare departure times as strings. */
  lemma FormatOrderIsTimeOrder(a: TimeOfDay, b: TimeOfDay)
    requires Valid(a) && Valid(b)
    ensures StrLe(Format(a), Format(b)) <==> NotAfter(a, b)
  {
    var fa, fb := Format(a), Format(b);
    DigitCharOrder(a.hour / 10, b.hour / 10);
    DigitCharOrder(a.hour % 10, b.hour % 10);
    DigitCharOrder(a.minute / 10, b.minute / 10);
    DigitCharOrder(a.minute % 10, b.minute % 10);
    assert fa[5..] == [] && fb[5..] == [];
    assert fa[4..][1..] == fa[5..] && fb[4..][1..] == fb[5..];
    assert StrLe(fa[4..], fb[4..]) <==> a.minute % 10 <= b.minute % 10;
    assert fa[3..][1..] == fa[4..] && fb[3..][1..] == fb[4..];
    assert StrLe(fa[3..], fb[3..]) <==> a.minute <= b.minute;
    assert fa[2..][1..] == fa[3..] && fb[2..][1..] == fb[3..];
    assert StrLe(fa[2..], fb[2..]) <==> a.minute <= b.minute;
    assert fa[1..][1..] == fa[2..] && fb[1..][1..] == fb[2..];
    assert StrLe(fa[1..], fb[1..]) <==> a.hour % 10 < b.hour % 10 || (a.hour % 10 == b.hour % 10 && a.minute <= b.minute);
  }

  lemma DigitCharOrder(d: nat, e: nat)
    requires d < 10 && e < 10
    ensures DigitChar(d) < DigitChar(e) <==> d < e
    ensures DigitChar(d) == DigitChar(e) <==> d == e
  {
  }

  /** Times written without zero padding do not sort in time order:
      `"10:00"` sorts before `"9:05"`. */
  lemma UnpaddedTimesMisorder()
    ensures ParseTime("9:05") == Some(TimeOfDay(9, 5)) && ParseTime("10:00") == Some(TimeOfDay(10, 0))
    ensures StrLe("10:00", "9:05") && !StrLe("9:05", "10:00")
  {
    NineOhFiveParses();
    TenParses();
    assert "10:00"[0] == '1' && "9:05"[0] == '9';
  }

  lemma NineOhFiveParses()
    ensures ParseTime("9:05") == Some(TimeOfDay(9, 5))
  {
    ParseTimeOfParts("9", "05");
    assert "9" + ":" + "05" == "9:05";
    assert DigitsValue("05") == 5 by { assert "05"[..1] == "0"; }
  }

  lemma TenParses()
    ensures ParseTime("10:00") == Some(TimeOfDay(10, 0))
  {
    ParseTimeOfParts("10", "00");
    assert "10" + ":" + "00" == "10:00";
    assert DigitsValue("10") == 10 by { assert "10"[..1] == "1"; }
    assert DigitsValue("00") == 0 by { assert "00"[..1] == "0"; }
  }
}

=== FILE: wrappers.dfy ===
/** Optional values: the model's stand-in for a JSON key that may be absent
    and for Python's `None`. */
module Wrappers {

  datatype Option<+T> = None | Some(value: T) {

    /** The wrapped value, or `default` when there is none: Python's
        `d.get(key, default)` once the lookup has been made. */
    function GetOr(default: T): T {
      match this
      case Some(v) => v
      case None => default
    }
  }
}
